=== FILE: README.md ===
# Plan summaries and daily task plans

This project is a Dafny model of the planning core of a goal-coaching backend. A user
creates a goal. The **plan-summary service** answers "give me the plan for this goal". It
answers from the stored plan when one is cached. Otherwise it asks an LLM for a summary:
an overview, phases and an estimated duration. When the LLM client fails it falls back to
a canned summary. It then fixes the goal's target date, reads the "Daily time:" line of the
goal description, stores the summary as a new active `ai_plans` row with the next version,
and makes that row the goal's current plan. Finally it tries, best effort, to generate a
task plan.

The **task-plan service** generates a task plan for a goal:

- It loads the goal and the goal's top-ranked plan.
- It resolves the start and target dates.
- It asks the LLM for a day-by-day plan of one to three tasks a day.
- It normalises the returned days: sorts them by index, renumbers them 0..N-1 and cuts them
  to the expected number of days.
- It stores the plan as the plan's payload, with its target date.
- It replaces the plan's rows in the `tasks` table.

The same service reads one day's tasks back.

The **LLM client** turns the model's reply into a JSON value. It first tries the whole text,
then the span from the first `{` to the last `}`. For task plans it then repairs every
task's `estimated_minutes` into [5, 60] before the schema checks run.

Modules (one per file):

| module | file | contents |
|---|---|---|
| `Wrappers` | wrappers.dfy | `Option` and `Result` with `:-` support |
| `Json` | json.dfy | decoded JSON values, Python truthiness, `dict.get`, `int()` of a float |
| `Text` | text.dfy | whitespace, `strip`, ASCII `lower`, substring search, decimal rendering of integers |
| `Seqs` | seqs.dfy | filtering, and a stable insertion sort by an integer key |
| `Schema` | schema.dfy | the pydantic records of schemas/plan_tasks.py and their field constraints as predicates |
| `LlmClient` | llm_client.dfy | the client error, JSON extraction, duration repair, reply parsing |
| `Store` | store.dfy | the four tables as sequences of rows, the shared queries, service errors, the request environment |
| `PlanTasks` | plan_tasks.dfy | the task-plan service |
| `PlanSummary` | plan_summary.dfy | the plan-summary service |

Modelling conventions:

- Calendar dates are integer day numbers. Database ids (uuids) are natural numbers.
- A table is a sequence of rows. An UPDATE or DELETE is a pure function from the old table to
  the new one.
- A request sees the world through an `Env` record. It holds:
  - today's date and the clock;
  - the uuid and row ids it will hand out;
  - the runtime's decoders and encoders: `json.loads`, `datetime.fromisoformat`,
    `date.isoformat`, `str()` of a non-string JSON value, and construction of the pydantic
    result models;
  - the two LLM transports, each returning the stripped reply text or an `LlmClientError`;
  - the column names the `tasks` table reports.

## Model

Source paths are relative to the repository root.

| member | source | states |
|---|---|---|
| LlmClient.RenderShowsStatus | backend/app/services/llm_client.py:29-32 | The rendering is the bare message exactly when there is no status code. Otherwise it is the message, then " (status=", then the code's digits, then ")", and those digits parse back to the code. |
| LlmClient.BraceSpan | backend/app/services/llm_client.py:219 | The greedy DOTALL match of `\{.*\}` runs from the first `{` to the last `}`. It starts with `{` and ends with `}`. It is absent exactly when no `{` comes before a `}`. |
| LlmClient.ExtractJsonPayload | backend/app/services/llm_client.py:213-226 | The whole text is used if it decodes. Otherwise the brace span is used if it decodes. It fails with "LLM response did not contain valid JSON." exactly when neither decodes. |
| LlmClient.RepairMinutes | backend/app/services/llm_client.py:245-252 | The repaired duration always lies in [5, 60]. In-range integers are kept, larger ones become 60 and smaller ones 5. A float is first truncated toward zero, then kept, raised to 5 or lowered to 60 the same way. Booleans, non-numbers and a missing value become 5. |
| LlmClient.RepairTask | backend/app/services/llm_client.py:253-255 | The repaired task has every key of the original plus `estimated_minutes`. All other keys keep their values, and the duration is an integer in [5, 60]. |
| LlmClient.RepairDay | backend/app/services/llm_client.py:239-256 | A day keeps its keys and values. Only a list under "tasks" is replaced, by its repaired list. A day without such a list is unchanged. |
| LlmClient.RepairTaskPlanPayload | backend/app/services/llm_client.py:228-258 | A payload that is not an object, or has no "days" list, comes back unchanged. Otherwise only "days" changes, to its repaired list. |
| LlmClient.RepairBoundsMinutes | backend/app/services/llm_client.py:228-258 | After repair, every day entry is an object and every task in a day's list has an integer duration in [5, 60]. |
| LlmClient.RepairTasksDropsNonObject | backend/app/services/llm_client.py:242-244 | A task entry that is not an object is dropped, and no other entry is affected. |
| LlmClient.RepairDaysDropsNonObject | backend/app/services/llm_client.py:236-238 | A day entry that is not an object is dropped, and no other entry is affected. |
| LlmClient.RepairTasksConcat | backend/app/services/llm_client.py:241-255 | Task entries are repaired one by one, in order: repairing a concatenation concatenates the repairs. |
| LlmClient.RepairDaysConcat | backend/app/services/llm_client.py:235-257 | Day entries are repaired one by one, in order: repairing a concatenation concatenates the repairs. |
| LlmClient.RepairIdempotent | backend/app/services/llm_client.py:228-258 | Repair is idempotent: repairing a repaired payload changes nothing. |
| LlmClient.ParseTaskPlanReply | backend/app/services/llm_client.py:206-211 | The extracted JSON is repaired before it is validated. A reply without JSON gives the "no valid JSON" client error. A repaired payload that is not an object escapes as a non-mapping. An object whose build satisfies all field constraints of TaskPlanResult is accepted as that build; any other object gives the "task plan payload is invalid" client error. An accepted plan is always such a build. No client error raised here carries a status code. |
| LlmClient.ParseSummaryReply | backend/app/services/llm_client.py:153-157 | A reply without JSON gives the "no valid JSON" client error. A non-object escapes as a non-mapping. An object that builds is accepted as that build, and one that does not gives the "payload is invalid" client error. An accepted summary is always built from the extracted object. |
| Schema.ValidResultNeedNotBeContiguous | backend/app/schemas/plan_tasks.py:84-88 | The field constraints admit a plan whose only day has index 3: the "continuous" days the description promises are not enforced by validation. |
| Store.FindGoal | backend/app/services/plan_tasks_service.py:120-132 | The goal lookup returns a row of the table with the requested id. It finds none exactly when no row has that id. |
| Store.NormalizeLanguage | backend/app/services/plan_tasks_service.py:178-183 | A language code is kept exactly when its stripped, lower-cased form is on the allow-list, and it is returned in that form. |
| Store.UserLanguage | backend/app/services/plan_tasks_service.py:165-183 | The user's language is the owner's profile `language_code`, stripped and lower-cased, when that is on the allow-list. It is absent when the goal has no owner or the owner has no profile. |
| Store.LatestPlan | backend/app/services/plan_tasks_service.py:138-151 | The goal's top plan is one of the goal's rows, and none of the goal's rows outranks it under active first, then version, then creation time. It is absent exactly when the goal has no plans. |
| Store.LatestPlanSameRanking | backend/app/services/plan_tasks_service.py:139-146 | Rewriting columns the plan query neither filters nor sorts by leaves the same row (same id and rank) on top. |
| Store.JsonDate | backend/app/services/plan_tasks_service.py:368-380 | A stored date value decodes only when it is a string, and then to the ISO parser's result. |
| PlanTasks.PositiveInt | backend/app/services/plan_tasks_service.py:382-389 | Positive integers pass through. Positive floats give their integer part, which may be 0. Booleans, non-positive numbers and non-numbers give nothing. |
| PlanTasks.HorizonFromPayload | backend/app/services/plan_tasks_service.py:66-68 | The horizon is `time_horizon_days` when it reads as a truthy positive integer, otherwise `estimated_duration_days`. |
| PlanTasks.ResolveSchedule | backend/app/services/plan_tasks_service.py:69-84 | A schedule always resolves, so the "target date missing" error is unreachable. The start is the first known of override, goal start and payload start; failing those it is the target minus (horizon - 1) when a target and a truthy horizon are known, and today otherwise. The target is the plan's, else the goal's, else the start plus (horizon or 30) minus 1. |
| PlanTasks.ExpectedDays | backend/app/services/plan_tasks_service.py:106 | The expected day count is the inclusive length of the range, and at least 1 when the range is inverted. |
| PlanTasks.ScheduleSpansHorizon | backend/app/services/plan_tasks_service.py:69-81 | Without any stored target, the range spans exactly the horizon, or 30 days. With a target but no start, the range spans exactly the horizon and ends at the target. |
| PlanTasks.NormalizeTaskPlan | backend/app/services/plan_tasks_service.py:399-419 | An empty plan is returned as it is. Otherwise the days are numbered 0..N-1, with N = min(expected, count) when expected is positive and N = count otherwise. The horizon becomes N. Day k has the content of the k-th day in index order, and nothing else in the plan changes. |
| PlanTasks.Renumber | backend/app/services/plan_tasks_service.py:408-411 | Renumbering keeps the days in place and gives day k the index k. |
| PlanTasks.NormalizeKeepsIndexOrder | backend/app/services/plan_tasks_service.py:407 | The sort underlying normalisation is a permutation of the days. It is in day-index order, and days with equal indices keep the planner's order. |
| PlanTasks.NormalizePreservesValidity | backend/app/services/plan_tasks_service.py:399-419 | Normalising a valid plan with a positive expected count gives a valid plan. Its days are numbered 0..N-1, its horizon is N, and 1 <= N <= expected. |
| PlanTasks.NormalizeExample | backend/app/services/plan_tasks_service.py:404-419 | Days numbered [2, 0, 5, 1], with 3 expected, become the days numbered 0, 1, 2 in that order, renumbered, with horizon 3. |
| PlanTasks.MaxDayIndex | backend/app/services/plan_tasks_service.py:393 | The result is a day index of the plan and is at least every day index. |
| PlanTasks.TaskPlanTargetDate | backend/app/services/plan_tasks_service.py:391-397 | The stored target is the start plus the largest day index. Validation makes that branch the only reachable one. A plan without days gets a target such that the inclusive range covers its horizon, or one day when the horizon is below 1. |
| PlanTasks.NormalizedTargetIsLastDay | backend/app/services/plan_tasks_service.py:391-397 | For a normalised non-empty plan, the stored target is the date of its last day. |
| PlanTasks.SupportsExtendedSchema | backend/app/services/plan_tasks_service.py:421-435 | A cached answer is reused. Otherwise the extended insert is used exactly when the table reports all five extra columns. |
| PlanTasks.TaskRows | backend/app/services/plan_tasks_service.py:277-291 | One row per task, in task order. Row j carries the task's text and minutes, order j+1 and the day's index. The extended insert also sets the goal, the planned date (start + day index), "core" and "pending"; the basic insert leaves those NULL. |
| PlanTasks.PlanRows | backend/app/services/plan_tasks_service.py:275-291 | As many rows as tasks over all days, all in the plan, with consecutive ids. |
| PlanTasks.ReplacePlanTasks | backend/app/services/plan_tasks_service.py:231-326 | The table afterwards holds the rows of other plans plus one row per generated task. |
| PlanTasks.ReplaceSplits | backend/app/services/plan_tasks_service.py:231-326 | After a replacement, the rows of other plans are the old ones in their old order, and the plan's own rows are exactly the generated ones. |
| PlanTasks.ReplaceTwice | backend/app/services/plan_tasks_service.py:238-241 | Replacing twice for the same plan leaves what the second replacement alone leaves: the DELETE makes the step independent of earlier rows. |
| PlanTasks.PlanRowsOfDay | backend/app/services/plan_tasks_service.py:275-291 | Among the rows generated for consecutively numbered days, the rows at day d are exactly the rows generated for day d. |
| PlanTasks.DayTaskRows | backend/app/services/plan_tasks_service.py:340-352 | The day query returns exactly the plan's rows at that day, as a permutation of the matching rows, sorted by order in day. |
| PlanTasks.ToPayload | backend/app/services/plan_tasks_service.py:358-363 | A response item copies the row's id and completion time. A missing description becomes "" and missing minutes become 0. |
| PlanTasks.FetchTasksForDay | backend/app/services/plan_tasks_service.py:328-366 | A negative day is a validation error, and a goal without plans is "no active plan". Otherwise the read succeeds exactly when every row of that day has at least 5 minutes, and then lists the day's rows in order. Every successful response is valid. |
| PlanTasks.PayloadsValid | backend/app/schemas/plan_tasks.py:154-158 | A response built from rows is valid exactly when every row's minutes, read with `or 0`, are at least 5. |
| PlanTasks.FetchEmptyDay | backend/app/services/plan_tasks_service.py:340-366 | A day with no rows reads as an empty list, not as an error. |
| PlanTasks.FetchFailsOnMissingMinutes | backend/app/services/plan_tasks_service.py:361 | A single row of the day without minutes makes the whole read fail. |
| PlanTasks.PlanSummaryText | backend/app/services/plan_tasks_service.py:61 | A non-empty plan summary wins. Otherwise a truthy overview is used and a falsy or missing one gives "". A truthy overview that is not a string fails the prompt's string field. |
| PlanTasks.PromptDailyMinutes | backend/app/services/plan_tasks_service.py:98-101 | A missing key defaults to 30. A present key must be an integer in [5, 300] (null included as a failure), and its value is then used. |
| PlanTasks.PromptDuration | backend/app/services/plan_tasks_service.py:97 | A missing or null duration is absent, and an integer is kept. It fails exactly for any other value. |
| PlanTasks.BuildTaskPrompt | backend/app/services/plan_tasks_service.py:86-104 | The prompt is built exactly when its three payload-derived fields check out. It is then valid and carries the goal, plan, dates, description, language and the title with its "Untitled goal" default. |
| PlanTasks.DumpReadsBack | backend/app/services/plan_tasks_service.py:226 | A stored task plan reads back with its horizon, start date and daily budget. It holds no overview, phases or duration. |
| PlanTasks.PersistPlanJson | backend/app/services/plan_tasks_service.py:211-229 | Only rows with the plan's id change, and only their payload and target date. Ids, activity, versions and creation times are untouched. |
| PlanTasks.PersistKeepsLatest | backend/app/services/plan_tasks_service.py:211-229 | After the update the goal's top plan is the same row, now holding the new payload. |
| PlanTasks.RequestTaskPlan | backend/app/services/plan_tasks_service.py:107 | A transport failure surfaces as that client error. An answered transport gives the parsed reply, with parse failures passed on as client or unexpected errors. An accepted plan satisfies the schema constraints. |
| PlanTasks.GenerateTaskPlanForGoal | backend/app/services/plan_tasks_service.py:48-118 | A missing goal gives "Goal not found." and a goal without plans gives "Goal has no active AI plan.". Otherwise a prompt error or a planner error is returned as is. When the planner answers, the result is its plan normalised to the expected day count of the resolved schedule, and that plan is what gets stored. A returned plan is valid, its days are numbered 0..N-1, its horizon is N and N is at most the expected day count. Goals and profiles are untouched, and no plan changes rank. |
| PlanTasks.StoreTaskPlan | backend/app/services/plan_tasks_service.py:110-111 | The writes of a generation leave goals, profiles and plan ranking unchanged. |
| PlanTasks.GenerationStoresPlan | backend/app/services/plan_tasks_service.py:108-110 | After a generation the goal's top plan is the same row as before, now holding the returned plan. |
| PlanTasks.ReplacedDayRows | backend/app/services/plan_tasks_service.py:231-352 | After replacing with contiguously numbered days, the day query for d returns exactly day d's generated rows in task order, and nothing for other days. |
| PlanTasks.FetchReplaced | backend/app/services/plan_tasks_service.py:328-366 | Over freshly replaced valid days, every day read succeeds and returns that day's tasks with their text and minutes, not completed. Later days read as empty. |
| PlanTasks.GeneratedTasksReadBack | backend/app/services/plan_tasks_service.py:107-111 | What a generation writes is what the day endpoint reads. Day d of the returned plan reads back as its tasks, in order, with text and minutes; days past the plan read as empty. |
| PlanSummary.ClassifyDailyTime | backend/app/services/plan_summary_service.py:308-320 | "let ai decide" gives none. 10 is returned exactly when "10 minute" occurs. 30 is returned exactly when, without those, both "15" and "30" occur. 60 needs "30" and "60" without "15". 90 needs "hour" or "60" but not both "30" and "60". |
| PlanSummary.ParseDailyTime | backend/app/services/plan_summary_service.py:291-320 | The budget is one of 10, 30, 60 or 90 minutes, or none. It is none when the description has no "Daily time:" marker in any letter case. |
| PlanSummary.ParseDailyTimeAfterMarker | backend/app/services/plan_summary_service.py:302-306 | The first marker is used, in any letter case and after any text that holds none. After it, whitespace including line breaks is skipped, and the rest of that line is stripped and classified. |
| PlanSummary.ParseDailyTimeAfterTitle | backend/app/services/plan_summary_service.py:302-306 | A title line without a marker, then "Daily time: " and a value: the value is what gets classified. |
| PlanSummary.ParseDailyTimeOnLaterLine | backend/app/services/plan_summary_service.py:294-320 | A description whose title line is followed by "Daily time: 15–30 minutes" gives 30. |
| PlanSummary.ClassifyTenMinutes | backend/app/services/plan_summary_service.py:295 | "10 minutes" is 10. |
| PlanSummary.ClassifyFifteenToThirty | backend/app/services/plan_summary_service.py:296 | "15–30 minutes" is 30. |
| PlanSummary.ClassifyDelegated | backend/app/services/plan_summary_service.py:299 | "let ai decide" is none. |
| PlanSummary.ResolveTargetDate | backend/app/services/plan_summary_service.py:367-381 | When the user delegated the duration and the estimate is positive, the target is today + estimate - 1. Otherwise an existing target is kept. Failing that it is today + estimate - 1, or today + 29. |
| PlanSummary.TargetCoversEstimate | backend/app/services/plan_summary_service.py:378-381 | Without a stored target, the range from today to the resolved target spans exactly the estimate, or 30 days. |
| PlanSummary.MaxVersion | backend/app/services/plan_summary_service.py:263-265 | The result is the largest version among the goal's plans. It is absent exactly when the goal has none. |
| PlanSummary.NextPlanVersion | backend/app/services/plan_summary_service.py:260-275 | The next version exceeds every version of the goal. It is 1 for a goal without plans and otherwise one more than an existing version. |
| PlanSummary.PlanPayloadFromSummary | backend/app/services/plan_summary_service.py:277-289 | The payload has overview, duration and phases. It has the daily-budget key exactly when a budget was parsed, holding that budget. |
| PlanSummary.TextField | backend/app/services/plan_summary_service.py:334 | A missing key reads as "" and a string value reads as itself. |
| PlanSummary.PhaseFromJson | backend/app/services/plan_summary_service.py:329-336 | A phase entry converts exactly when its `days_range` is missing, null or a string. Name and focus go through `str`. |
| PlanSummary.PhasesFromJson | backend/app/services/plan_summary_service.py:326-337 | A successful conversion yields one phase per object entry. Failures are unexpected errors. |
| PlanSummary.PhasesSkipNonObjects | backend/app/services/plan_summary_service.py:328 | Entries that are not objects play no part: dropping them changes nothing. |
| PlanSummary.RawPhases | backend/app/services/plan_summary_service.py:326 | Missing phases read as none and a list as its entries. Only a truthy number or boolean, which is not iterable, fails. |
| PlanSummary.BuildSummaryFromPayload | backend/app/services/plan_summary_service.py:322-343 | The summary is built exactly when the phases and the duration convert. It carries the goal id, the overview text and the stored duration. |
| PlanSummary.PayloadRoundTrip | backend/app/services/plan_summary_service.py:277-343 | Storing a summary as a payload and reading it back gives the same summary, whatever daily budget was stored beside it. |
| PlanSummary.PhasesRoundTrip | backend/app/services/plan_summary_service.py:285 | Dumping phases and converting them back gives the same phases. |
| PlanSummary.TaskPlanPayloadReadsAsEmptySummary | backend/app/services/plan_summary_service.py:322-343 | A stored task plan reads as a summary with empty overview, no phases and no duration. |
| PlanSummary.FindPlan | backend/app/services/plan_summary_service.py:165-169 | The join finds the first row with the id, and nothing exactly when no row has it. |
| PlanSummary.FindUniquePlan | backend/app/services/plan_summary_service.py:165-169 | A row whose id is unique is the one the join finds. |
| PlanSummary.SelectPlanPayload | backend/app/services/plan_summary_service.py:162-194 | A truthy payload of the goal's current plan is used. Otherwise the payload is that of the goal's top-ranked plan (active first, then highest version, then newest), present exactly when the goal has any plan; that fallback runs even for a missing goal. |
| PlanSummary.CachedSummary | backend/app/services/plan_summary_service.py:156-160 | There is no cached summary exactly when no truthy payload is stored. A stored object gives the summary built from it. A truthy non-object fails. |
| PlanSummary.TitleOr | backend/app/services/plan_summary_service.py:65 | A non-empty title is used, and otherwise the fallback text. |
| PlanSummary.FallbackSummary | backend/app/services/plan_summary_service.py:58-75 | The fallback names the goal's title (or "your goal") in its overview. It has no phases and a 30-day duration. |
| PlanSummary.Deactivate | backend/app/services/plan_summary_service.py:209 | Every plan of the goal becomes inactive, and no other row changes. |
| PlanSummary.SetTargetDate | backend/app/services/plan_summary_service.py:383-393 | Only the goal's rows get the new target date, and every other row is unchanged. |
| PlanSummary.SetCurrentPlan | backend/app/services/plan_summary_service.py:248-257 | Only the goal's rows point at the new plan, and every other row is unchanged. |
| PlanSummary.PersistPlanSummary | backend/app/services/plan_summary_service.py:196-258 | The goal's old plans are deactivated and the new plan is appended with a version above all of the goal's versions. The new plan is the goal's only active plan, and the goal points at it. Tasks and profiles are untouched. |
| PlanSummary.PersistedPlanIsLatest | backend/app/services/plan_summary_service.py:196-258 | After persisting, the new plan is the one the plan queries rank first. |
| PlanSummary.PersistedSummaryIsCached | backend/app/services/plan_summary_service.py:156-258 | With a fresh plan id, the persisted summary is exactly what the next cache read returns. |
| PlanSummary.SummaryPromptFor | backend/app/services/plan_summary_service.py:44-49 | The prompt uses the title (default "Untitled goal") and the description (default ""). Its language is the user's allow-listed language, or "en" when the user has none. |
| PlanSummary.RequestSummary | backend/app/services/llm_client.py:104-157 | A transport failure becomes that client error. An answered transport gives the parsed reply. |
| PlanSummary.SummaryFor | backend/app/services/plan_summary_service.py:50-75 | An LLM answer is bound to the goal. Any client error gives the fallback summary. Only a reply that is not a mapping escapes, as an unexpected error. |
| PlanSummary.WithTaskPlan | backend/app/services/plan_summary_service.py:345-351 | Task generation is best effort: on failure the tables are unchanged. In every case goals, profiles and plan ranking are kept. |
| PlanSummary.GetOrGeneratePlanSummary | backend/app/services/plan_summary_service.py:36-93 | A cached summary is returned with the tables unchanged, and a failing cache read propagates. A cache miss for a missing goal is "goal not found". On a cache miss for an existing goal the result is the LLM's summary bound to the goal when the client answers, and the fallback when the client fails. Every success is bound to the goal. |
| PlanSummary.RecordedState | backend/app/services/plan_summary_service.py:76-91 | Recording a summary sets the goal's target only if it had none and points the goal at the new plan. It appends that plan as the goal's only active, top-ranked plan, whose payload holds the summary and the parsed daily budget. |
| PlanSummary.CacheHit | backend/app/services/plan_summary_service.py:37-39 | A cache hit returns the cached summary and changes nothing. |
| PlanSummary.MissedCache | backend/app/services/plan_summary_service.py:41-92 | A successful request that missed the cache found the goal, recorded the summary, then ran task generation on the result. |
| PlanSummary.RequestActivatesNewPlan | backend/app/services/plan_summary_service.py:36-93 | After a successful uncached request, the goal has its target date and points at the new plan, one row more exists, and the new plan is the goal's only active, top-ranked plan, whether or not task generation succeeded. |
| PlanSummary.RepeatAfterFailedGeneration | backend/app/services/plan_summary_service.py:36-93 | When task generation fails, the next request is answered from the cache with the summary just produced and changes nothing. |
| PlanSummary.RepeatAfterGeneration | backend/app/services/plan_summary_service.py:36-93 | When task generation succeeds it overwrites the new plan's payload with the task plan. The next request is then answered from the cache with an empty overview, no phases and no duration. |
| Seqs.SortByStable | backend/app/services/plan_tasks_service.py:407 | The sort is stable: for every key, the elements with that key appear in their original order. |
| Seqs.SortByPermutes | backend/app/services/plan_tasks_service.py:407 | The sort is a permutation of its input. |
| Seqs.SortBySorted | backend/app/services/plan_tasks_service.py:407 | Sorting what is already in key order changes nothing. |

## Left out

- The HTTP exchange with the LLM (request bodies, headers, timeouts, `response.json()` and the
  `choices[0].message.content` lookup) is a transport parameter. It returns the stripped reply
  text or an `LlmClientError`. An exception from decoding the HTTP body is not modelled.
- Prompt rendering (`PlanSummaryPrompt.to_formatted_string`, `model_dump_json` of the task
  prompt) and the system prompt text are out of scope: they only produce text for the LLM.
- `_fetch_user_context` in both services is not modelled: it feeds an optional prompt line and
  does not affect what is stored or returned. The same goes for the `user_context` prompt fields.
- `goal_category` is not modelled. The goal query never selects a category, so the prompt field
  is always unset.
- `plan_json` is a decoded column. Decoding a string column with `json.loads`, where a malformed
  string becomes `{}`, is not modelled. `PayloadDict` covers only the rule that a non-object
  reads as `{}`.
- Pydantic's lax coercions (for example a numeric string, an integral float or a bool accepted
  for an int field) are not modelled. The stored-payload readers accept only the exact JSON kinds, and
  building the LLM result models is a parameter.
- `str.lower` and the regex's IGNORECASE are modelled on ASCII letters only. Unicode case
  folding is not modelled.
- Date arithmetic overflow (`OverflowError` past year 9999) is not modelled: dates are unbounded
  day numbers.
- JSON floats are real numbers, not IEEE doubles.
- LlmClient.RepairMinutes: `json.loads` accepts `NaN` and `Infinity`, and `int()` of those raises
  `ValueError` or `OverflowError` rather than `LlmClientError`. That exception escapes the task
  plan request instead of becoming the invalid-payload client error. The model has no such
  floats, so this path is not modelled.
- Logging, `async`, transactions and commits, and concurrent requests are not modelled.
- `created_at` and `updated_at` timestamps written by `NOW()` are not modelled. The creation
  time of a new summary plan is the environment's clock.
- SQL leaves ties under ORDER BY unordered. The model picks the first row in table order among
  plans that tie on all three keys, and keeps table order among task rows with equal
  `order_in_day`. Both are admissible orders.
- uuids (`uuid4`, `gen_random_uuid`) are environment parameters. A generation numbers its task
  rows consecutively from the environment's first id.
- PlanTasks.SupportsExtendedSchema: the per-instance cache is a parameter. Each service call
  runs in a fresh service instance, so the model always passes "not cached".
- PlanSummary.SummaryFor: in Python the LLM error branch catches only `LlmClientError`. Every
  transport and validation failure is one, so the model's single client-error branch covers it.
  A reply that is not a mapping raises `TypeError`, which escapes the service.
- PlanSummary.ClassifyDailyTime: the 60 and 90 buckets are stated one way (the value implies the
  words), not as if-and-only-if. The converse follows from the other clauses and the test order
  but is not stated separately.
- The API routers, `main.py`, settings and the database session factory are not part of this
  model.

=== FILE: json.dfy ===
/**
 * Decoded JSON values as the Python side sees them after `json.loads`:
 * objects become dicts (key order is not modelled), numbers with a fraction
 * or exponent become floats, and every value has a Python truthiness.
 */
module Json {
  import opened Wrappers

  datatype Json =
    | JNull
    | JBool(b: bool)
    | JInt(i: int)
    | JFloat(f: real)
    | JStr(s: string)
    | JArr(items: seq<Json>)
    | JObj(fields: map<string, Json>)

  /** Python's `bool(value)`: null, false, zero and empty containers are falsy. */
  predicate Truthy(j: Json) {
    match j
    case JNull => false
    case JBool(b) => b
    case JInt(i) => i != 0
    case JFloat(f) => f != 0.0
    case JStr(s) => |s| > 0
    case JArr(items) => |items| > 0
    case JObj(fields) => |fields| > 0
  }

  /** `dict.get(key)`: `None` stands for Python's missing-key default. */
  function Get(m: map<string, Json>, key: string): (r: Option<Json>)
    ensures r.Some? <==> key in m
    ensures r.Some? ==> r.value == m[key]
  {
    if key in m then Some(m[key]) else None
  }

  /** `int(x)` on a float: truncation toward zero. */
  function Trunc(f: real): (r: int)
    ensures 0.0 <= f ==> 0 <= r && r as real <= f < r as real + 1.0
    ensures f < 0.0 ==> r <= 0 && r as real - 1.0 < f <= r as real
  {
    if f >= 0.0 then f.Floor else -((-f).Floor)
  }
}

=== FILE: llm_client.dfy ===
/**
 * The response side of the LLM gateway: the error it raises, how it pulls a
 * JSON value out of the model's text, and the repair pass that makes task
 * durations fit the schema before validation. The HTTP exchange itself is a
 * `transport` parameter that yields the reply text or a transport error.
 */
module LlmClient {
  import opened Wrappers
  import opened Text
  import opened Json
  import opened Schema

  /** LlmClientError: a message and, for upstream HTTP failures, the status code. */
  datatype LlmError = LlmError(message: string, statusCode: Option<int>) {

    /** `str(error)` */
    function Render(): (r: string)
      ensures statusCode.None? ==> r == message
      ensures statusCode.Some? ==> |r| > |message| && r[..|message|] == message
    {
      match statusCode
      case None => message
      case Some(code) => message + StatusPrefix + IntToString(code) + ")"
    }
  }

  const StatusPrefix := " (status="
  const NoJsonMessage := "LLM response did not contain valid JSON."
  const SummaryInvalidMessage := "LLM response payload is invalid."
  const TaskPlanInvalidMessage := "Task plan payload is invalid."

  /** What the summary planner is asked (`PlanSummaryPrompt`); the profile context line is not modelled. */
  datatype PlanSummaryPrompt = PlanSummaryPrompt(goalTitle: string, goalDescription: string, language: string)

  /** Why a gateway call produced no result: an LlmClientError, or a TypeError because
      the decoded JSON was not an object and could not be unpacked into a model. */
  datatype GatewayError = ClientError(error: LlmError) | PayloadNotAMapping

  /** The rendering carries the status suffix exactly when there is a status code,
      and the code can be read back from it. */
  lemma RenderShowsStatus(e: LlmError)
    ensures e.Render() == e.message <==> e.statusCode.None?
    ensures e.statusCode.Some? ==>
      var r := e.Render();
      && |r| >= |e.message| + |StatusPrefix| + 2
      && r[|e.message|..|e.message| + |StatusPrefix|] == StatusPrefix
      && r[|r| - 1] == ')'
      && ParseInt(r[|e.message| + |StatusPrefix|..|r| - 1]) == e.statusCode
  {
    if e.statusCode.Some? {
      var code := e.statusCode.value;
      var r := e.Render();
      var digits := IntToString(code);
      assert r == e.message + StatusPrefix + digits + ")";
      assert r[|e.message| + |StatusPrefix|..|r| - 1] == digits;
      assert r[|e.message|..|e.message| + |StatusPrefix|] == StatusPrefix;
      IntToStringRoundTrip(code);
    }
  }

  function FirstIndexOf(s: string, c: char): (r: Option<nat>)
    ensures r.Some? ==> r.value < |s| && s[r.value] == c && forall j :: 0 <= j < r.value ==> s[j] != c
    ensures r.None? ==> forall j :: 0 <= j < |s| ==> s[j] != c
  {
    if |s| == 0 then None
    else if s[0] == c then Some(0)
    else match FirstIndexOf(s[1..], c)
      case None => None
      case Some(i) => Some(i + 1)
  }

  function LastIndexOf(s: string, c: char): (r: Option<nat>)
    ensures r.Some? ==> r.value < |s| && s[r.value] == c && forall j :: r.value < j < |s| ==> s[j] != c
    ensures r.None? ==> forall j :: 0 <= j < |s| ==> s[j] != c
  {
    if |s| == 0 then None
    else if s[|s| - 1] == c then Some(|s| - 1)
    else LastIndexOf(s[..|s| - 1], c)
  }

  /** The match of `re.search(r"\{.*\}", raw, re.DOTALL)`: from the first '{' to the
      last '}' when that '}' comes after the '{'. */
  function BraceSpan(raw: string): (r: Option<string>)
    ensures r.Some? ==>
      && FirstIndexOf(raw, '{').Some? && LastIndexOf(raw, '}').Some?
      && FirstIndexOf(raw, '{').value < LastIndexOf(raw, '}').value
      && r.value == raw[FirstIndexOf(raw, '{').value..LastIndexOf(raw, '}').value + 1]
    ensures r.Some? ==> |r.value| >= 2 && r.value[0] == '{' && r.value[|r.value| - 1] == '}'
    ensures r.None? <==> forall i, k :: 0 <= i < k < |raw| && raw[i] == '{' ==> raw[k] != '}'
  {
    match (FirstIndexOf(raw, '{'), LastIndexOf(raw, '}'))
    case (Some(i), Some(k)) =>
      if i < k then Some(raw[i..k + 1])
      else
        assert forall i', k' :: 0 <= i' < k' < |raw| && raw[i'] == '{' ==> raw[k'] != '}' by {
          forall i', k' | 0 <= i' < k' < |raw| && raw[i'] == '{'
            ensures raw[k'] != '}'
          {
            assert i <= i';
          }
        }
        None
    case _ => None
  }

  /** `_extract_json_payload`: the whole text, else the brace span, else an error. */
  function ExtractJsonPayload(raw: string, parse: string -> Option<Json>): (r: Result<Json, LlmError>)
    ensures parse(raw).Some? ==> r == Ok(parse(raw).value)
    ensures parse(raw).None? && BraceSpan(raw).Some? && parse(BraceSpan(raw).value).Some? ==>
      r == Ok(parse(BraceSpan(raw).value).value)
    ensures r.Err? <==> parse(raw).None? && (BraceSpan(raw).None? || parse(BraceSpan(raw).value).None?)
    ensures r.Err? ==> r.error == LlmError(NoJsonMessage, None)
  {
    match parse(raw)
    case Some(j) => Ok(j)
    case None =>
      match BraceSpan(raw)
      case None => Err(LlmError(NoJsonMessage, None))
      case Some(snippet) =>
        match parse(snippet)
        case Some(j) => Ok(j)
        case None => Err(LlmError(NoJsonMessage, None))
  }

  const MinutesKey := "estimated_minutes"
  const TasksKey := "tasks"
  const DaysKey := "days"

  /** The duration a task ends up with: booleans and non-numbers (or a missing value)
      become 5, numbers are truncated toward zero; then the result is clamped into [5, 60]. */
  function RepairMinutes(v: Option<Json>): (r: int)
    ensures MinTaskMinutes <= r <= MaxTaskMinutes
    ensures v.Some? && v.value.JInt? && MinTaskMinutes <= v.value.i <= MaxTaskMinutes ==> r == v.value.i
    ensures v.Some? && v.value.JInt? && v.value.i > MaxTaskMinutes ==> r == MaxTaskMinutes
    ensures v.Some? && v.value.JInt? && v.value.i < MinTaskMinutes ==> r == MinTaskMinutes
    ensures v.Some? && v.value.JFloat? && MinTaskMinutes <= Trunc(v.value.f) <= MaxTaskMinutes ==> r == Trunc(v.value.f)
    ensures v.Some? && v.value.JFloat? && Trunc(v.value.f) > MaxTaskMinutes ==> r == MaxTaskMinutes
    ensures v.Some? && v.value.JFloat? && Trunc(v.value.f) < MinTaskMinutes ==> r == MinTaskMinutes
    ensures (v.None? || !(v.value.JInt? || v.value.JFloat?)) ==> r == MinTaskMinutes
  {
    var coerced :=
      match v
      case Some(JBool(_)) => 5
      case Some(JInt(i)) => i
      case Some(JFloat(f)) => Trunc(f)
      case _ => 5;
    if coerced < 5 then 5 else if coerced > 60 then 60 else coerced
  }

  /** A task entry whose duration is already an integer in [5, 60]. */
  predicate TaskRepaired(t: Json) {
    && t.JObj?
    && MinutesKey in t.fields
    && t.fields[MinutesKey].JInt?
    && MinTaskMinutes <= t.fields[MinutesKey].i <= MaxTaskMinutes
  }

  /** `{**task, "estimated_minutes": coerced}` */
  function RepairTask(task: map<string, Json>): (r: Json)
    ensures TaskRepaired(r)
    ensures r.fields.Keys == task.Keys + {MinutesKey}
    ensures forall k :: k in task && k != MinutesKey ==> r.fields[k] == task[k]
  {
    JObj(task[MinutesKey := JInt(RepairMinutes(Get(task, MinutesKey)))])
  }

  /** Drops the entries that are not objects and repairs the rest, in order. */
  function RepairTasks(tasks: seq<Json>): (r: seq<Json>)
    ensures |r| <= |tasks|
    ensures forall i :: 0 <= i < |r| ==> TaskRepaired(r[i])
  {
    if |tasks| == 0 then []
    else (if tasks[0].JObj? then [RepairTask(tasks[0].fields)] else []) + RepairTasks(tasks[1..])
  }

  /** A day keeps every key; only a list under "tasks" is replaced by its repaired form. */
  function RepairDay(day: map<string, Json>): (r: Json)
    ensures r.JObj? && r.fields.Keys == day.Keys
    ensures forall k :: k in day && k != TasksKey ==> r.fields[k] == day[k]
    ensures !(TasksKey in day && day[TasksKey].JArr?) ==> r == JObj(day)
    ensures TasksKey in day && day[TasksKey].JArr? ==> r.fields[TasksKey] == JArr(RepairTasks(day[TasksKey].items))
  {
    match Get(day, TasksKey)
    case Some(JArr(tasks)) => JObj(day[TasksKey := JArr(RepairTasks(tasks))])
    case _ => JObj(day)
  }

  function RepairDays(days: seq<Json>): (r: seq<Json>)
    ensures |r| <= |days|
    ensures forall i :: 0 <= i < |r| ==> r[i].JObj?
  {
    if |days| == 0 then []
    else (if days[0].JObj? then [RepairDay(days[0].fields)] else []) + RepairDays(days[1..])
  }

  /** `_normalize_task_plan_payload` */
  function RepairTaskPlanPayload(payload: Json): (r: Json)
    ensures !(payload.JObj? && DaysKey in payload.fields && payload.fields[DaysKey].JArr?) ==> r == payload
    ensures payload.JObj? && DaysKey in payload.fields && payload.fields[DaysKey].JArr? ==>
      && r.JObj?
      && r.fields.Keys == payload.fields.Keys
      && (forall k :: k in payload.fields && k != DaysKey ==> r.fields[k] == payload.fields[k])
      && r.fields[DaysKey] == JArr(RepairDays(payload.fields[DaysKey].items))
  {
    if !payload.JObj? then payload
    else match Get(payload.fields, DaysKey)
      case Some(JArr(days)) => JObj(payload.fields[DaysKey := JArr(RepairDays(days))])
      case _ => payload
  }

  /** Every task entry of every day entry carries an integer duration in [5, 60]. */
  predicate PlanRepaired(payload: Json) {
    payload.JObj? && DaysKey in payload.fields && payload.fields[DaysKey].JArr? ==>
      forall d :: d in payload.fields[DaysKey].items ==>
        d.JObj? && (TasksKey in d.fields && d.fields[TasksKey].JArr? ==>
          forall t :: t in d.fields[TasksKey].items ==> TaskRepaired(t))
  }

  /** After repair, every surviving task's duration lies in [5, 60]. */
  lemma RepairBoundsMinutes(payload: Json)
    ensures PlanRepaired(RepairTaskPlanPayload(payload))
  {
    var r := RepairTaskPlanPayload(payload);
    if payload.JObj? && DaysKey in payload.fields && payload.fields[DaysKey].JArr? {
      var days := r.fields[DaysKey].items;
      forall d | d in days
        ensures d.JObj? && (TasksKey in d.fields && d.fields[TasksKey].JArr? ==>
          forall t :: t in d.fields[TasksKey].items ==> TaskRepaired(t))
      {
        RepairedDayShape(payload.fields[DaysKey].items, d);
      }
    }
  }

  lemma {:induction false} RepairedDayShape(days: seq<Json>, d: Json)
    requires d in RepairDays(days)
    ensures d.JObj? && (TasksKey in d.fields && d.fields[TasksKey].JArr? ==>
      forall t :: t in d.fields[TasksKey].items ==> TaskRepaired(t))
  {
    var head := if days[0].JObj? then [RepairDay(days[0].fields)] else [];
    if d in head {
      var day := days[0].fields;
      if TasksKey in day && day[TasksKey].JArr? {
        var ts := RepairTasks(day[TasksKey].items);
        forall t | t in ts ensures TaskRepaired(t) {
          var i :| 0 <= i < |ts| && ts[i] == t;
        }
      }
    } else {
      assert RepairDays(days) == head + RepairDays(days[1..]);
      RepairedDayShape(days[1..], d);
    }
  }

  /** Repairing a concatenation repairs each part: entries keep their relative order. */
  lemma {:induction false} RepairTasksConcat(a: seq<Json>, b: seq<Json>)
    ensures RepairTasks(a + b) == RepairTasks(a) + RepairTasks(b)
  {
    if |a| == 0 {
      assert a + b == b;
    } else {
      assert (a + b)[1..] == a[1..] + b;
      RepairTasksConcat(a[1..], b);
    }
  }

  /** A task entry that is not an object is dropped and nothing else changes. */
  lemma RepairTasksDropsNonObject(a: seq<Json>, x: Json, b: seq<Json>)
    requires !x.JObj?
    ensures RepairTasks(a + [x] + b) == RepairTasks(a + b)
  {
    RepairTasksConcat(a + [x], b);
    RepairTasksConcat(a, [x]);
    RepairTasksConcat(a, b);
    assert RepairTasks([x]) == [];
  }

  lemma {:induction false} RepairDaysConcat(a: seq<Json>, b: seq<Json>)
    ensures RepairDays(a + b) == RepairDays(a) + RepairDays(b)
  {
    if |a| == 0 {
      assert a + b == b;
    } else {
      assert (a + b)[1..] == a[1..] + b;
      RepairDaysConcat(a[1..], b);
    }
  }

  /** A day entry that is not an object is dropped and nothing else changes. */
  lemma RepairDaysDropsNonObject(a: seq<Json>, x: Json, b: seq<Json>)
    requires !x.JObj?
    ensures RepairDays(a + [x] + b) == RepairDays(a + b)
  {
    RepairDaysConcat(a + [x], b);
    RepairDaysConcat(a, [x]);
    RepairDaysConcat(a, b);
    assert RepairDays([x]) == [];
  }

  lemma {:induction false} RepairTasksIdempotent(tasks: seq<Json>)
    ensures RepairTasks(RepairTasks(tasks)) == RepairTasks(tasks)
  {
    if |tasks| > 0 {
      var rest := RepairTasks(tasks[1..]);
      RepairTasksIdempotent(tasks[1..]);
      if tasks[0].JObj? {
        var t := RepairTask(tasks[0].fields);
        var m := t.fields;
        assert m[MinutesKey := JInt(RepairMinutes(Get(m, MinutesKey)))] == m;
        assert RepairTask(m) == t;
        assert RepairTasks(tasks) == [t] + rest;
        assert RepairTasks([t] + rest) == [t] + RepairTasks(rest) by {
          assert ([t] + rest)[1..] == rest;
        }
      } else {
        assert RepairTasks(tasks) == rest;
      }
    }
  }

  lemma {:induction false} RepairDaysIdempotent(days: seq<Json>)
    ensures RepairDays(RepairDays(days)) == RepairDays(days)
  {
    if |days| > 0 {
      var rest := RepairDays(days[1..]);
      RepairDaysIdempotent(days[1..]);
      if days[0].JObj? {
        var day := days[0].fields;
        var d := RepairDay(day);
        if TasksKey in day && day[TasksKey].JArr? {
          RepairTasksIdempotent(day[TasksKey].items);
          assert d.fields[TasksKey := JArr(RepairTasks(d.fields[TasksKey].items))] == d.fields;
        }
        assert RepairDay(d.fields) == d;
        assert RepairDays(days) == [d] + rest;
        assert RepairDays([d] + rest) == [d] + RepairDays(rest) by {
          assert ([d] + rest)[1..] == rest;
        }
      } else {
        assert RepairDays(days) == rest;
      }
    }
  }

  /** Repair is idempotent: a repaired payload is left as it is. */
  lemma RepairIdempotent(payload: Json)
    ensures RepairTaskPlanPayload(RepairTaskPlanPayload(payload)) == RepairTaskPlanPayload(payload)
  {
    if payload.JObj? && DaysKey in payload.fields && payload.fields[DaysKey].JArr? {
      var r := RepairTaskPlanPayload(payload);
      RepairDaysIdempotent(payload.fields[DaysKey].items);
      assert r.fields[DaysKey := JArr(RepairDays(r.fields[DaysKey].items))] == r.fields;
    }
  }

  /** `generate_task_plan` after the transport returned the reply text: extract, repair,
      then build the model (`build` decodes field types; the field constraints are checked here). */
  function ParseTaskPlanReply(content: string, parse: string -> Option<Json>,
                              build: map<string, Json> -> Option<TaskPlanResult>): (r: Result<TaskPlanResult, GatewayError>)
    ensures r.Ok? ==> ValidResult(r.value)
    ensures ExtractJsonPayload(content, parse).Err? ==> r == Err(ClientError(LlmError(NoJsonMessage, None)))
    ensures r.Err? && r.error.ClientError? ==> r.error.error.statusCode.None?
    ensures r.Ok? ==>
      && ExtractJsonPayload(content, parse).Ok?
      && exists j :: RepairTaskPlanPayload(ExtractJsonPayload(content, parse).value) == JObj(j) && build(j) == Some(r.value)
    ensures ExtractJsonPayload(content, parse).Ok? ==>
      var repaired := RepairTaskPlanPayload(ExtractJsonPayload(content, parse).value);
      && (!repaired.JObj? ==> r == Err(PayloadNotAMapping))
      && (repaired.JObj? && build(repaired.fields).Some? && ValidResult(build(repaired.fields).value) ==>
            r == Ok(build(repaired.fields).value))
      && (repaired.JObj? && (build(repaired.fields).None? || !ValidResult(build(repaired.fields).value)) ==>
            r == Err(ClientError(LlmError(TaskPlanInvalidMessage, None))))
  {
    match ExtractJsonPayload(content, parse)
    case Err(e) => Err(ClientError(e))
    case Ok(payload) =>
      var repaired := RepairTaskPlanPayload(payload);
      if !repaired.JObj? then Err(PayloadNotAMapping)
      else match build(repaired.fields)
        case Some(result) =>
          if ValidResult(result) then Ok(result) else Err(ClientError(LlmError(TaskPlanInvalidMessage, None)))
        case None => Err(ClientError(LlmError(TaskPlanInvalidMessage, None)))
  }

  /** `generate_plan_summary` after the transport returned the reply text. */
  function ParseSummaryReply(content: string, parse: string -> Option<Json>,
                             build: map<string, Json> -> Option<PlanSummaryResult>): (r: Result<PlanSummaryResult, GatewayError>)
    ensures ExtractJsonPayload(content, parse).Err? ==> r == Err(ClientError(LlmError(NoJsonMessage, None)))
    ensures r.Ok? ==> exists j :: ExtractJsonPayload(content, parse) == Ok(JObj(j)) && build(j) == Some(r.value)
    ensures ExtractJsonPayload(content, parse).Ok? ==>
      var payload := ExtractJsonPayload(content, parse).value;
      && (!payload.JObj? ==> r == Err(PayloadNotAMapping))
      && (payload.JObj? && build(payload.fields).Some? ==> r == Ok(build(payload.fields).value))
      && (payload.JObj? && build(payload.fields).None? ==> r == Err(ClientError(LlmError(SummaryInvalidMessage, None))))
  {
    match ExtractJsonPayload(content, parse)
    case Err(e) => Err(ClientError(e))
    case Ok(payload) =>
      if !payload.JObj? then Err(PayloadNotAMapping)
      else match build(payload.fields)
        case Some(result) => Ok(result)
        case None => Err(ClientError(LlmError(SummaryInvalidMessage, None)))
  }
}

=== FILE: plan_summary.dfy ===
/**
 * The plan-summary service: reading a goal description's "Daily time:" line,
 * choosing the goal's target date, numbering plan versions, converting between
 * a summary and the plan payload stored with it, persisting a new active plan,
 * and the cache / LLM / fallback decision of a summary request.
 */
module PlanSummary {
  import opened Wrappers
  import opened Text
  import opened Json
  import opened Seqs
  import opened Schema
  import opened LlmClient
  import opened Store
  import opened PlanTasks

  // -------------------------------------------------------------- daily time

  const DailyTimeMarker := "daily time:"

  /** The bucket of a lower-cased "Daily time:" value. The tests run in this order, so a
      value mentioning 15 and 30 is 30 even when it also mentions 60. */
  function ClassifyDailyTime(t: string): (r: Option<int>)
    ensures r.None? || r.value in {10, 30, 60, 90}
    ensures Contains(t, "let ai decide") ==> r.None?
    ensures r == Some(10) <==> !Contains(t, "let ai decide") && Contains(t, "10 minute")
    ensures r == Some(30) <==>
      !Contains(t, "let ai decide") && !Contains(t, "10 minute") && Contains(t, "15") && Contains(t, "30")
    ensures r == Some(60) ==> Contains(t, "30") && Contains(t, "60") && !Contains(t, "15")
    ensures r == Some(90) ==> (Contains(t, "hour") || Contains(t, "60")) && !(Contains(t, "30") && Contains(t, "60"))
    ensures r.None? && !Contains(t, "let ai decide") ==>
      !Contains(t, "10 minute") && !Contains(t, "hour") && !Contains(t, "60") && !(Contains(t, "15") && Contains(t, "30"))
  {
    if Contains(t, "let ai decide") then None
    else if Contains(t, "10 minute") then Some(10)
    else if Contains(t, "15") && Contains(t, "30") then Some(30)
    else if Contains(t, "30") && Contains(t, "60") then Some(60)
    else if Contains(t, "hour") || Contains(t, "60") then Some(90)
    else None
  }

  /**
   * `_parse_daily_time_from_description`: the first case-insensitive "Daily time:", then
   * `\s*` (which may cross line breaks), then the rest of that line, stripped and lower-cased.
   * When only whitespace follows the marker the captured text strips to "" and classifies as None.
   */
  function ParseDailyTime(description: string): (r: Option<int>)
    ensures r.None? || r.value in {10, 30, 60, 90}
    ensures !Contains(Lower(description), DailyTimeMarker) ==> r.None?
  {
    match IndexFrom(Lower(description), DailyTimeMarker, 0)
    case None => None
    case Some(i) =>
      var value := TakeLine(TrimStart(description[i + |DailyTimeMarker|..]));
      ClassifyDailyTime(Lower(Strip(value)))
  }

  /** The first of the buckets: "10 minutes". */
  lemma ClassifyTenMinutes()
    ensures ClassifyDailyTime("10 minutes") == Some(10)
  {
    var t := "10 minutes";
    assert OccursAt(t, "10 minute", 0);
    assert !OccursAt(t, "let ai decide", 0) by { assert t[0] != 'l'; }
  }

  const FifteenToThirty := "15–30 minutes"

  /** "15–30 minutes" is 30: it is tested before the 30–60 bucket, which it does not reach. */
  lemma ClassifyFifteenToThirty()
    ensures ClassifyDailyTime(FifteenToThirty) == Some(30)
  {
    FifteenToThirtyMentionsBoth();
    FifteenToThirtyNotDelegated();
    FifteenToThirtyNotTen();
  }

  lemma FifteenToThirtyMentionsBoth()
    ensures Contains(FifteenToThirty, "15") && Contains(FifteenToThirty, "30")
  {
    var t := FifteenToThirty;
    assert t[0] == '1' && t[1] == '5' && t[3] == '3' && t[4] == '0';
    MatchAt(t, "15", 0);
    ContainsAt(t, "15", 0);
    MatchAt(t, "30", 3);
    ContainsAt(t, "30", 3);
  }

  lemma FifteenToThirtyNotDelegated()
    ensures !Contains(FifteenToThirty, "let ai decide")
  {
    var t := FifteenToThirty;
    MismatchAt(t, "let ai decide", 0, 0);
    IndexFromSkip(t, "let ai decide", 0);
  }

  lemma FifteenToThirtyNotTen()
    ensures !Contains(FifteenToThirty, "10 minute")
  {
    var t, pat := FifteenToThirty, "10 minute";
    assert t[0] == '1' && t[1] == '5' && t[2] == '–' && t[3] == '3' && t[4] == '0';
    MismatchAt(t, pat, 0, 1);
    IndexFromSkip(t, pat, 0);
    MismatchAt(t, pat, 1, 0);
    IndexFromSkip(t, pat, 1);
    MismatchAt(t, pat, 2, 0);
    IndexFromSkip(t, pat, 2);
    MismatchAt(t, pat, 3, 0);
    IndexFromSkip(t, pat, 3);
    MismatchAt(t, pat, 4, 0);
    IndexFromSkip(t, pat, 4);
  }

  /** "Let AI decide" (lower-cased) leaves the budget unset. */
  lemma ClassifyDelegated()
    ensures ClassifyDailyTime("let ai decide") == None
  {
    assert OccursAt("let ai decide", "let ai decide", 0);
  }

  /** The marker's first letter appears nowhere else in it, so no occurrence of the marker
      can overlap the start of another. */
  lemma MarkerStartsOnce()
    ensures forall k :: 1 <= k < |DailyTimeMarker| ==> DailyTimeMarker[k] != 'd'
  {
  }

  /** With the first marker (in any letter case) after a prefix `p` that holds none, the
      marker is found at the end of `p`. */
  lemma {:induction false} MarkerFoundAfter(p: string, m: string, tail: string)
    requires !Contains(Lower(p), DailyTimeMarker)
    requires Lower(m) == DailyTimeMarker
    ensures IndexFrom(Lower(p + m + tail), DailyTimeMarker, 0) == Some(|p|)
  {
    var d := p + m + tail;
    var L, pat := Lower(d), DailyTimeMarker;
    forall i | 0 <= i < |p| ensures L[i] == Lower(p)[i] {
      assert d[i] == p[i];
    }
    forall i | |p| <= i < |p| + |pat| ensures L[i] == Lower(m)[i - |p|] {
      assert d[i] == m[i - |p|];
    }
    assert L[|p|..|p| + |pat|] == Lower(m);
    forall j | 0 <= j < |p|
      ensures !OccursAt(L, pat, j)
    {
      if j + |pat| <= |p| {
        assert !OccursAt(Lower(p), pat, j);
        assert L[j..j + |pat|] == Lower(p)[j..j + |pat|];
      } else {
        MarkerStartsOnce();
        assert L[j + (|p| - j)] == Lower(m)[0] == 'd';
        MismatchAt(L, pat, j, |p| - j);
      }
    }
    FirstOccurrence(L, pat, |p|);
  }

  /** The first marker, in any letter case and after any text without one: whatever whitespace
      follows it, line breaks included, is skipped, and the value is the rest of the first line
      that has text. */
  lemma {:induction false} ParseDailyTimeAfterMarker(p: string, m: string, w: string, v: string, rest: string)
    requires !Contains(Lower(p), DailyTimeMarker)
    requires Lower(m) == DailyTimeMarker
    requires forall i :: 0 <= i < |w| ==> IsSpace(w[i])
    requires |v| > 0 && !IsSpace(v[0]) && !IsSpace(v[|v| - 1]) && '\n' !in v
    ensures ParseDailyTime(p + m + w + v + "\n" + rest) == ClassifyDailyTime(Lower(v))
  {
    var tail := v + "\n" + rest;
    var d := p + m + w + v + "\n" + rest;
    assert d == p + m + (w + tail);
    MarkerFoundAfter(p, m, w + tail);
    assert d[|p| + |DailyTimeMarker|..] == w + tail;
    assert TrimStart(w + tail) == tail by {
      TrimStartSkips(w, tail);
    }
    assert TakeLine(tail) == v by {
      TakeLineEnds(v, rest);
    }
    StripTrimmed(v);
  }

  lemma FifteenToThirtyIsLower()
    ensures Lower(FifteenToThirty) == FifteenToThirty
  {
  }

  /** The marker on the line after a title line, in the capitalisation the goal form writes. */
  lemma {:induction false} ParseDailyTimeAfterTitle(title: string, v: string, rest: string)
    requires !Contains(Lower(title + "\n"), DailyTimeMarker)
    requires |v| > 0 && !IsSpace(v[0]) && !IsSpace(v[|v| - 1]) && '\n' !in v
    ensures ParseDailyTime(title + "\nDaily time: " + v + "\n" + rest) == ClassifyDailyTime(Lower(v))
  {
    assert Lower("Daily time:") == DailyTimeMarker;
    assert IsSpace(" "[0]);
    assert title + "\nDaily time: " == (title + "\n") + "Daily time:" + " ";
    ParseDailyTimeAfterMarker(title + "\n", "Daily time:", " ", v, rest);
  }

  /** A goal description whose title line comes before "Daily time: 15–30 minutes". */
  lemma ParseDailyTimeOnLaterLine(title: string, rest: string)
    requires !Contains(Lower(title + "\n"), DailyTimeMarker)
    ensures ParseDailyTime(title + "\nDaily time: " + FifteenToThirty + "\n" + rest) == Some(30)
  {
    var v := FifteenToThirty;
    assert !IsSpace(v[0]) && !IsSpace(v[|v| - 1]) && '\n' !in v;
    ParseDailyTimeAfterTitle(title, v, rest);
    FifteenToThirtyIsLower();
    ClassifyFifteenToThirty();
  }

  // ------------------------------------------------------------- target date

  predicate PositiveEstimate(estimated: Option<int>) {
    estimated.Some? && estimated.value > 0
  }

  /** The user left the duration to the planner: the description mentions a preferred
      completion and "let ai decide" (case-insensitively). */
  predicate DelegatedDuration(description: Option<string>) {
    var d := Lower(description.GetOr(""));
    Contains(d, "preferred completion") && Contains(d, "let ai decide")
  }

  /** `_resolve_target_date`; the target is inclusive, so a duration of `n` days ends `n - 1` days after today. */
  function ResolveTargetDate(existing: Option<Date>, description: Option<string>, estimated: Option<int>, today: Date): (r: Date)
    ensures DelegatedDuration(description) && PositiveEstimate(estimated) ==> r == today + estimated.value - 1
    ensures !(DelegatedDuration(description) && PositiveEstimate(estimated)) && existing.Some? ==> r == existing.value
    ensures existing.None? && PositiveEstimate(estimated) ==> r == today + estimated.value - 1
    ensures existing.None? && !PositiveEstimate(estimated) ==> r == today + DefaultPlanDurationDays - 1
  {
    if DelegatedDuration(description) && PositiveEstimate(estimated) then today + estimated.value - 1
    else if existing.Some? then existing.value
    else if PositiveEstimate(estimated) then today + estimated.value - 1
    else today + DefaultPlanDurationDays - 1
  }

  /** Without a stored target, a range starting today and ending at the resolved target covers
      exactly the estimated number of days (or 30). */
  lemma TargetCoversEstimate(description: Option<string>, estimated: Option<int>, today: Date)
    ensures ExpectedDays(Schedule(today, ResolveTargetDate(None, description, estimated, today)))
         == if PositiveEstimate(estimated) then estimated.value else DefaultPlanDurationDays
  {
  }

  // ------------------------------------------------------------------ version

  /** `MAX(version)` over the goal's plans. */
  function MaxVersion(plans: seq<Plan>, goalId: Id): (r: Option<int>)
    ensures r.None? <==> forall i :: 0 <= i < |plans| ==> plans[i].goalId != goalId
    ensures r.Some? ==> forall i :: 0 <= i < |plans| && plans[i].goalId == goalId ==> plans[i].version <= r.value
    ensures r.Some? ==> exists i :: 0 <= i < |plans| && plans[i].goalId == goalId && plans[i].version == r.value
  {
    if |plans| == 0 then None
    else
      var rest := MaxVersion(plans[1..], goalId);
      assert forall i :: 1 <= i < |plans| ==> plans[i] == plans[1..][i - 1];
      if plans[0].goalId != goalId then rest
      else if rest.Some? && rest.value > plans[0].version then rest
      else Some(plans[0].version)
  }

  /** `_next_plan_version`: `COALESCE(MAX(version), 0) + 1`. */
  function NextPlanVersion(plans: seq<Plan>, goalId: Id): (r: int)
    ensures forall i :: 0 <= i < |plans| && plans[i].goalId == goalId ==> plans[i].version < r
    ensures (forall i :: 0 <= i < |plans| ==> plans[i].goalId != goalId) ==> r == 1
    ensures r == 1 || exists i :: 0 <= i < |plans| && plans[i].goalId == goalId && r == plans[i].version + 1
    ensures (forall i :: 0 <= i < |plans| && plans[i].goalId == goalId ==> plans[i].version >= 0) ==> r >= 1
  {
    match MaxVersion(plans, goalId)
    case None => 1
    case Some(m) => m + 1
  }

  // ----------------------------------------------------- payload <-> summary

  const PhasesKey := "phases"

  function OptionalText(v: Option<string>): Json {
    match v
    case Some(s) => JStr(s)
    case None => JNull
  }

  function PhaseJson(p: PlanPhase): Json {
    JObj(map["name" := JStr(p.name), "focus" := JStr(p.focus), "days_range" := OptionalText(p.daysRange)])
  }

  function PhasesJson(phases: seq<PlanPhase>): (r: seq<Json>)
    ensures |r| == |phases|
    ensures forall i :: 0 <= i < |r| ==> r[i] == PhaseJson(phases[i])
  {
    seq(|phases|, i requires 0 <= i < |phases| => PhaseJson(phases[i]))
  }

  /** `_plan_payload_from_summary`: overview, duration (null when absent) and phases; the daily
      budget key only when one was parsed. */
  function PlanPayloadFromSummary(s: PlanSummary, dailyMinutes: Option<int>): (r: map<string, Json>)
    ensures DailyMinutesKey in r <==> dailyMinutes.Some?
    ensures dailyMinutes.Some? ==> r[DailyMinutesKey] == JInt(dailyMinutes.value)
    ensures r.Keys == {OverviewKey, DurationKey, PhasesKey} + (if dailyMinutes.Some? then {DailyMinutesKey} else {})
  {
    var duration := match s.estimatedDurationDays case Some(n) => JInt(n) case None => JNull;
    var base := map[OverviewKey := JStr(s.overview), DurationKey := duration, PhasesKey := JArr(PhasesJson(s.phases))];
    if dailyMinutes.Some? then base[DailyMinutesKey := JInt(dailyMinutes.value)] else base
  }

  /** `str(value)` for a JSON value; floats and containers use the runtime's rendering. */
  function PyStr(v: Json, render: Json -> string): (r: string)
    ensures v.JStr? ==> r == v.s
  {
    match v
    case JStr(s) => s
    case JNull => "None"
    case JBool(b) => if b then "True" else "False"
    case JInt(i) => IntToString(i)
    case _ => render(v)
  }

  /** `str(m.get(key, ""))` */
  function TextField(m: map<string, Json>, key: string, render: Json -> string): (r: string)
    ensures key !in m ==> r == ""
    ensures key in m && m[key].JStr? ==> r == m[key].s
  {
    if key in m then PyStr(m[key], render) else ""
  }

  /** One phase entry: name and focus through `str`, `days_range` must be a string or null. */
  function PhaseFromJson(m: map<string, Json>, render: Json -> string): (r: Result<PlanPhase, ServiceError>)
    ensures r.Err? ==> r.error.Unexpected?
    ensures r.Ok? <==> "days_range" !in m || m["days_range"].JStr? || m["days_range"] == JNull
    ensures r.Ok? ==> r.value.name == TextField(m, "name", render) && r.value.focus == TextField(m, "focus", render)
    ensures r.Ok? ==> r.value.daysRange == (if "days_range" in m && m["days_range"].JStr? then Some(m["days_range"].s) else None)
  {
    var daysRange :-
      match Get(m, "days_range")
      case None => Ok(None)
      case Some(JNull) => Ok(None)
      case Some(JStr(s)) => Ok(Some(s))
      case Some(_) => Err(Unexpected("days_range is not a string"));
    Ok(PlanPhase(TextField(m, "name", render), TextField(m, "focus", render), daysRange))
  }

  predicate IsObject(j: Json) {
    j.JObj?
  }

  /** The phase loop: entries that are not objects are skipped, the others converted in order. */
  function PhasesFromJson(items: seq<Json>, render: Json -> string): (r: Result<seq<PlanPhase>, ServiceError>)
    ensures r.Err? ==> r.error.Unexpected?
    ensures r.Ok? ==> |r.value| == |Filter(items, IsObject)|
  {
    if |items| == 0 then Ok([])
    else if !items[0].JObj? then PhasesFromJson(items[1..], render)
    else
      var first :- PhaseFromJson(items[0].fields, render);
      var rest :- PhasesFromJson(items[1..], render);
      Ok([first] + rest)
  }

  /** Entries that are not objects play no part: dropping them changes nothing. */
  lemma {:induction false} PhasesSkipNonObjects(items: seq<Json>, render: Json -> string)
    ensures PhasesFromJson(items, render) == PhasesFromJson(Filter(items, IsObject), render)
  {
    if |items| > 0 {
      var objects := Filter(items, IsObject);
      var rest := Filter(items[1..], IsObject);
      PhasesSkipNonObjects(items[1..], render);
      if items[0].JObj? {
        assert objects == [items[0]] + rest;
        assert objects[1..] == rest;
      } else {
        assert objects == rest;
      }
    }
  }

  /** `payload.get("phases") or []`, as the entries the loop will see. A non-empty string or
      object iterates over characters or keys, none of them an object, so it contributes
      nothing; a truthy number or boolean is not iterable. */
  function RawPhases(payload: map<string, Json>): (r: Result<seq<Json>, ServiceError>)
    ensures r.Err? ==> r.error.Unexpected?
    ensures PhasesKey !in payload ==> r == Ok([])
    ensures PhasesKey in payload && payload[PhasesKey].JArr? ==> r == Ok(payload[PhasesKey].items)
    ensures r.Err? <==> PhasesKey in payload && Truthy(payload[PhasesKey])
                        && (payload[PhasesKey].JInt? || payload[PhasesKey].JFloat? || payload[PhasesKey].JBool?)
  {
    match Get(payload, PhasesKey)
    case None => Ok([])
    case Some(JArr(items)) => Ok(items)
    case Some(v) =>
      if Truthy(v) && (v.JInt? || v.JFloat? || v.JBool?) then Err(Unexpected("phases is not iterable")) else Ok([])
  }

  /** `_build_summary_from_payload` */
  function BuildSummaryFromPayload(goalId: Id, payload: map<string, Json>, render: Json -> string): (r: Result<PlanSummary, ServiceError>)
    ensures r.Err? ==> r.error.Unexpected?
    ensures r.Ok? ==> r.value.goalId == goalId
    ensures r.Ok? ==> r.value.overview == TextField(payload, OverviewKey, render)
    ensures r.Ok? ==> PromptDuration(payload) == Ok(r.value.estimatedDurationDays)
    ensures r.Ok? <==> RawPhases(payload).Ok? && PhasesFromJson(RawPhases(payload).value, render).Ok? && PromptDuration(payload).Ok?
  {
    var raw :- RawPhases(payload);
    var phases :- PhasesFromJson(raw, render);
    var duration :- PromptDuration(payload);
    Ok(PlanSummary(goalId, TextField(payload, OverviewKey, render), phases, duration))
  }

  lemma PhaseRoundTrip(p: PlanPhase, render: Json -> string)
    ensures PhaseFromJson(PhaseJson(p).fields, render) == Ok(p)
  {
    var m := PhaseJson(p).fields;
    assert m["name"] == JStr(p.name) && m["focus"] == JStr(p.focus);
    assert m["days_range"] == OptionalText(p.daysRange);
  }

  lemma {:induction false} PhasesRoundTrip(phases: seq<PlanPhase>, render: Json -> string)
    ensures PhasesFromJson(PhasesJson(phases), render) == Ok(phases)
  {
    if |phases| > 0 {
      var items := PhasesJson(phases);
      assert PhasesFromJson(items[1..], render) == Ok(phases[1..]) by {
        assert items[1..] == PhasesJson(phases[1..]);
        PhasesRoundTrip(phases[1..], render);
      }
      assert items[0].JObj? && PhaseFromJson(items[0].fields, render) == Ok(phases[0]) by {
        PhaseRoundTrip(phases[0], render);
      }
      PhasesFromObject(items, render);
      assert [phases[0]] + phases[1..] == phases;
    }
  }

  /** One object entry that reads as a phase, followed by entries that read as phases. */
  lemma PhasesFromObject(items: seq<Json>, render: Json -> string)
    requires |items| > 0 && items[0].JObj?
    requires PhaseFromJson(items[0].fields, render).Ok? && PhasesFromJson(items[1..], render).Ok?
    ensures PhasesFromJson(items, render)
         == Ok([PhaseFromJson(items[0].fields, render).value] + PhasesFromJson(items[1..], render).value)
  {
  }

  /** Storing a summary as a plan payload and reading it back gives the summary again,
      whatever daily budget was stored beside it. */
  lemma PayloadRoundTrip(s: PlanSummary, dailyMinutes: Option<int>, render: Json -> string)
    ensures BuildSummaryFromPayload(s.goalId, PlanPayloadFromSummary(s, dailyMinutes), render) == Ok(s)
  {
    var payload := PlanPayloadFromSummary(s, dailyMinutes);
    assert RawPhases(payload) == Ok(PhasesJson(s.phases)) by {
      assert payload[PhasesKey] == JArr(PhasesJson(s.phases));
    }
    PhasesRoundTrip(s.phases, render);
    assert PromptDuration(payload) == Ok(s.estimatedDurationDays) by {
      assert payload[DurationKey] == match s.estimatedDurationDays case Some(n) => JInt(n) case None => JNull;
    }
    assert TextField(payload, OverviewKey, render) == s.overview by {
      assert payload[OverviewKey] == JStr(s.overview);
    }
  }

  /** Once task generation has overwritten the stored payload with a task plan, reading it as a
      summary gives an empty overview, no phases and no duration. */
  lemma TaskPlanPayloadReadsAsEmptySummary(goalId: Id, p: TaskPlanResult, formatIsoDate: Date -> string, render: Json -> string)
    ensures BuildSummaryFromPayload(goalId, PayloadDict(DumpTaskPlan(p, formatIsoDate)), render)
         == Ok(PlanSummary(goalId, "", [], None))
  {
    var payload := PayloadDict(DumpTaskPlan(p, formatIsoDate));
    assert OverviewKey !in payload && PhasesKey !in payload && DurationKey !in payload;
  }

  // ------------------------------------------------------------------- cache

  /** The ai_plans row with this id, the first if several carry it. */
  function FindPlan(plans: seq<Plan>, id: Id): (r: Option<Plan>)
    ensures r.Some? ==> r.value in plans && r.value.id == id
    ensures r.None? <==> forall i :: 0 <= i < |plans| ==> plans[i].id != id
    ensures r.Some? ==> exists k :: 0 <= k < |plans| && plans[k] == r.value && forall j :: 0 <= j < k ==> plans[j].id != id
  {
    if |plans| == 0 then None
    else if plans[0].id == id then Some(plans[0])
    else
      var rest := FindPlan(plans[1..], id);
      assert forall j :: 1 <= j < |plans| ==> plans[j] == plans[1..][j - 1];
      rest
  }

  /** A row whose id no other row carries is the one the id lookup finds. */
  lemma FindUniquePlan(plans: seq<Plan>, k: nat)
    requires k < |plans|
    requires forall j :: 0 <= j < |plans| && j != k ==> plans[j].id != plans[k].id
    ensures FindPlan(plans, plans[k].id) == Some(plans[k])
  {
  }

  /** The payload the goal's `current_plan_id` points at (the LEFT JOIN of the first query). */
  function JoinedPayload(db: Db, goalId: Id): Option<Json> {
    match FindGoal(db.goals, goalId)
    case None => None
    case Some(goal) =>
      match goal.currentPlanId
      case None => None
      case Some(pid) =>
        match FindPlan(db.plans, pid)
        case None => None
        case Some(plan) => Some(plan.planJson)
  }

  /** `_select_plan_payload`: the joined payload when it is truthy, otherwise the payload of the
      goal's top-ranked plan. The second query runs even when the goal row is missing. */
  function SelectPlanPayload(db: Db, goalId: Id): (r: Option<Json>)
    ensures JoinedPayload(db, goalId).Some? && Truthy(JoinedPayload(db, goalId).value) ==> r == JoinedPayload(db, goalId)
    ensures !(JoinedPayload(db, goalId).Some? && Truthy(JoinedPayload(db, goalId).value)) ==>
      (r.Some? <==> exists i :: 0 <= i < |db.plans| && db.plans[i].goalId == goalId)
    ensures r.Some? ==> exists i :: 0 <= i < |db.plans| && db.plans[i].planJson == r.value
    ensures !(JoinedPayload(db, goalId).Some? && Truthy(JoinedPayload(db, goalId).value)) && r.Some? ==>
      LatestPlan(db.plans, goalId).Some? && r.value == LatestPlan(db.plans, goalId).value.planJson
  {
    var joined := JoinedPayload(db, goalId);
    if joined.Some? && Truthy(joined.value) then
      assert FindPlan(db.plans, FindGoal(db.goals, goalId).value.currentPlanId.value).value in db.plans;
      joined
    else
      match LatestPlan(db.plans, goalId)
      case None => None
      case Some(plan) => Some(plan.planJson)
  }

  /** `_fetch_cached_plan_summary`: nothing when no truthy payload is stored, the summary read from
      it when it is an object, and a failure when a truthy non-object is stored (it has no `get`). */
  function CachedSummary(db: Db, goalId: Id, render: Json -> string): (r: Result<Option<PlanSummary>, ServiceError>)
    ensures r == Ok(None) <==> SelectPlanPayload(db, goalId).None? || !Truthy(SelectPlanPayload(db, goalId).value)
    ensures r.Ok? && r.value.Some? ==>
      && SelectPlanPayload(db, goalId).Some? && SelectPlanPayload(db, goalId).value.JObj?
      && BuildSummaryFromPayload(goalId, SelectPlanPayload(db, goalId).value.fields, render) == Ok(r.value.value)
    ensures r.Err? ==> r.error.Unexpected?
  {
    match SelectPlanPayload(db, goalId)
    case None => Ok(None)
    case Some(payload) =>
      if !Truthy(payload) then Ok(None)
      else if !payload.JObj? then Err(Unexpected("plan_json is not a mapping"))
      else
        var summary :- BuildSummaryFromPayload(goalId, payload.fields, render);
        Ok(Some(summary))
  }

  // ---------------------------------------------------------------- fallback

  const FallbackPrefix := "AI summary unavailable right now. We'll retry soon. Goal: "
  const FallbackSuffix := ". You can continue with tasks while the summary regenerates."

  /** `goal.get("title") or fallback`: a missing or empty title falls back. */
  function TitleOr(title: Option<string>, fallback: string): (r: string)
    ensures title.Some? && |title.value| > 0 ==> r == title.value
    ensures (title.None? || |title.value| == 0) ==> r == fallback
  {
    if title.Some? && |title.value| > 0 then title.value else fallback
  }

  /** The summary returned when the LLM client fails: it names the goal, has no phases and
      assumes the default 30-day duration. */
  function FallbackSummary(goalId: Id, title: Option<string>): (r: PlanSummary)
    ensures r.goalId == goalId && r.phases == [] && r.estimatedDurationDays == Some(DefaultPlanDurationDays)
    ensures Contains(r.overview, TitleOr(title, "your goal"))
  {
    var name := TitleOr(title, "your goal");
    ContainsInfix(FallbackPrefix, name, FallbackSuffix);
    PlanSummary(goalId, FallbackPrefix + name + FallbackSuffix, [], Some(DefaultPlanDurationDays))
  }

  // ------------------------------------------------------------- persistence

  /** `UPDATE ai_plans SET is_active = false WHERE goal_id = :goal_id` */
  function Deactivate(plans: seq<Plan>, goalId: Id): (r: seq<Plan>)
    ensures |r| == |plans|
    ensures forall i :: 0 <= i < |plans| ==> r[i] == plans[i].(isActive := plans[i].isActive && plans[i].goalId != goalId)
  {
    seq(|plans|, i requires 0 <= i < |plans| => plans[i].(isActive := plans[i].isActive && plans[i].goalId != goalId))
  }

  /** `UPDATE goals SET target_date = :target_date WHERE id = :goal_id` */
  function SetTargetDate(goals: seq<Goal>, goalId: Id, target: Date): (r: seq<Goal>)
    ensures |r| == |goals|
    ensures forall i :: 0 <= i < |goals| ==>
      r[i] == if goals[i].id == goalId then goals[i].(targetDate := Some(target)) else goals[i]
  {
    seq(|goals|, i requires 0 <= i < |goals| => if goals[i].id == goalId then goals[i].(targetDate := Some(target)) else goals[i])
  }

  /** `UPDATE goals SET current_plan_id = :plan_id WHERE id = :goal_id` */
  function SetCurrentPlan(goals: seq<Goal>, goalId: Id, planId: Id): (r: seq<Goal>)
    ensures |r| == |goals|
    ensures forall i :: 0 <= i < |goals| ==>
      r[i] == if goals[i].id == goalId then goals[i].(currentPlanId := Some(planId)) else goals[i]
  {
    seq(|goals|, i requires 0 <= i < |goals| => if goals[i].id == goalId then goals[i].(currentPlanId := Some(planId)) else goals[i])
  }

  /** The row `_persist_plan_summary` inserts. */
  function SummaryPlan(goalId: Id, s: PlanSummary, version: int, modelName: string, target: Date,
                       dailyMinutes: Option<int>, planId: Id, now: int): Plan {
    Plan.Plan(planId, goalId, version, modelName, JObj(PlanPayloadFromSummary(s, dailyMinutes)),
              Some(s.overview), Some(target), true, now)
  }

  /** `_persist_plan_summary`: the goal's plans are switched off, a new active plan with the next
      version is appended, and the goal points at it. */
  function PersistPlanSummary(db: Db, goalId: Id, s: PlanSummary, modelName: string, target: Date,
                              dailyMinutes: Option<int>, planId: Id, now: int): (r: Db)
    ensures r.tasks == db.tasks && r.profiles == db.profiles
    ensures |r.plans| == |db.plans| + 1
    ensures r.plans[|db.plans|] == SummaryPlan(goalId, s, NextPlanVersion(db.plans, goalId), modelName, target, dailyMinutes, planId, now)
    ensures forall i :: 0 <= i < |db.plans| ==>
      r.plans[i] == db.plans[i].(isActive := db.plans[i].isActive && db.plans[i].goalId != goalId)
    ensures forall i :: 0 <= i < |r.plans| && r.plans[i].goalId == goalId && r.plans[i].isActive ==> i == |db.plans|
    ensures forall i :: 0 <= i < |db.plans| && db.plans[i].goalId == goalId ==> db.plans[i].version < r.plans[|db.plans|].version
    ensures r.goals == SetCurrentPlan(db.goals, goalId, planId)
  {
    var version := NextPlanVersion(db.plans, goalId);
    var plans := Deactivate(db.plans, goalId) + [SummaryPlan(goalId, s, version, modelName, target, dailyMinutes, planId, now)];
    db.(plans := plans, goals := SetCurrentPlan(db.goals, goalId, planId))
  }

  /** After persisting, the new plan is the one the plan queries rank first. */
  lemma PersistedPlanIsLatest(db: Db, goalId: Id, s: PlanSummary, modelName: string, target: Date,
                              dailyMinutes: Option<int>, planId: Id, now: int)
    ensures var r := PersistPlanSummary(db, goalId, s, modelName, target, dailyMinutes, planId, now);
      LatestPlan(r.plans, goalId) == Some(r.plans[|db.plans|])
  {
    var r := PersistPlanSummary(db, goalId, s, modelName, target, dailyMinutes, planId, now);
    var top := LatestPlan(r.plans, goalId);
    assert r.plans[|db.plans|].goalId == goalId;
    var k :| 0 <= k < |r.plans| && r.plans[k] == top.value;
  }

  /** Pointing a goal at a plan changes only that goal's pointer. */
  lemma {:induction false} FindGoalAfterSetCurrent(goals: seq<Goal>, goalId: Id, planId: Id)
    requires FindGoal(goals, goalId).Some?
    ensures FindGoal(SetCurrentPlan(goals, goalId, planId), goalId)
         == Some(FindGoal(goals, goalId).value.(currentPlanId := Some(planId)))
  {
    var updated := SetCurrentPlan(goals, goalId, planId);
    if goals[0].id != goalId {
      assert updated[1..] == SetCurrentPlan(goals[1..], goalId, planId);
      FindGoalAfterSetCurrent(goals[1..], goalId, planId);
    }
  }

  /** With a plan id no stored plan carries, the freshly persisted summary is what the cache
      query returns next. */
  lemma PersistedSummaryIsCached(db: Db, goalId: Id, s: PlanSummary, modelName: string, target: Date,
                                 dailyMinutes: Option<int>, planId: Id, now: int, render: Json -> string)
    requires s.goalId == goalId
    requires FindGoal(db.goals, goalId).Some?
    requires forall i :: 0 <= i < |db.plans| ==> db.plans[i].id != planId
    ensures CachedSummary(PersistPlanSummary(db, goalId, s, modelName, target, dailyMinutes, planId, now), goalId, render)
         == Ok(Some(s))
  {
    var r := PersistPlanSummary(db, goalId, s, modelName, target, dailyMinutes, planId, now);
    var payload := PlanPayloadFromSummary(s, dailyMinutes);
    JoinedAfterPersist(db, goalId, s, modelName, target, dailyMinutes, planId, now);
    assert |payload| > 0 by {
      assert OverviewKey in payload;
    }
    SelectJoined(r, goalId);
    PayloadRoundTrip(s, dailyMinutes, render);
    CachedFromObject(r, goalId, payload, render);
  }

  lemma JoinedAfterPersist(db: Db, goalId: Id, s: PlanSummary, modelName: string, target: Date,
                           dailyMinutes: Option<int>, planId: Id, now: int)
    requires FindGoal(db.goals, goalId).Some?
    requires forall i :: 0 <= i < |db.plans| ==> db.plans[i].id != planId
    ensures JoinedPayload(PersistPlanSummary(db, goalId, s, modelName, target, dailyMinutes, planId, now), goalId)
         == Some(JObj(PlanPayloadFromSummary(s, dailyMinutes)))
  {
    var r := PersistPlanSummary(db, goalId, s, modelName, target, dailyMinutes, planId, now);
    FindGoalAfterSetCurrent(db.goals, goalId, planId);
    FindUniquePlan(r.plans, |db.plans|);
  }

  lemma SelectJoined(db: Db, goalId: Id)
    requires JoinedPayload(db, goalId).Some? && Truthy(JoinedPayload(db, goalId).value)
    ensures SelectPlanPayload(db, goalId) == JoinedPayload(db, goalId)
  {
  }

  lemma CachedFromObject(db: Db, goalId: Id, payload: map<string, Json>, render: Json -> string)
    requires SelectPlanPayload(db, goalId) == Some(JObj(payload)) && |payload| > 0
    requires BuildSummaryFromPayload(goalId, payload, render).Ok?
    ensures CachedSummary(db, goalId, render) == Ok(Some(BuildSummaryFromPayload(goalId, payload, render).value))
  {
  }

  // ----------------------------------------------------------- the request

  datatype SummaryOutcome = SummaryOutcome(summary: PlanSummary, db: Db)

  /** The prompt of a summary request; the profile-derived user context is not modelled. */
  function SummaryPromptFor(goal: Goal, profiles: seq<Profile>): (r: PlanSummaryPrompt)
    ensures r.goalTitle == TitleOr(goal.title, "Untitled goal")
    ensures r.goalDescription == goal.description.GetOr("")
    ensures r.language in AllowedLanguages
    ensures UserLanguage(profiles, goal.userId).None? ==> r.language == "en"
    ensures UserLanguage(profiles, goal.userId).Some? ==> r.language == UserLanguage(profiles, goal.userId).value
  {
    PlanSummaryPrompt(TitleOr(goal.title, "Untitled goal"), goal.description.GetOr(""),
                      UserLanguage(profiles, goal.userId).GetOr("en"))
  }

  /** `generate_plan_summary`: transport failures become client errors, the reply is then parsed. */
  function RequestSummary(prompt: PlanSummaryPrompt, env: Env): (r: Result<PlanSummaryResult, GatewayError>)
    ensures env.summaryTransport(prompt).Err? ==> r == Err(ClientError(env.summaryTransport(prompt).error))
    ensures env.summaryTransport(prompt).Ok? ==> r == ParseSummaryReply(env.summaryTransport(prompt).value, env.parseJson, env.buildSummary)
    ensures r.Ok? ==> env.summaryTransport(prompt).Ok?
  {
    match env.summaryTransport(prompt)
    case Err(e) => Err(ClientError(e))
    case Ok(content) => ParseSummaryReply(content, env.parseJson, env.buildSummary)
  }

  /** The summary of a request that missed the cache: the LLM's answer, or the fallback when the
      client fails; a reply that is not a mapping escapes as an unexpected error. */
  function SummaryFor(goalId: Id, goal: Goal, profiles: seq<Profile>, env: Env): (r: Result<PlanSummary, ServiceError>)
    ensures r.Ok? ==> r.value.goalId == goalId
    ensures r.Err? <==> RequestSummary(SummaryPromptFor(goal, profiles), env) == Err(PayloadNotAMapping)
    ensures r.Err? ==> r.error.Unexpected?
    ensures RequestSummary(SummaryPromptFor(goal, profiles), env).Err? && RequestSummary(SummaryPromptFor(goal, profiles), env).error.ClientError?
            ==> r == Ok(FallbackSummary(goalId, goal.title))
    ensures RequestSummary(SummaryPromptFor(goal, profiles), env).Ok? ==>
      var answer := RequestSummary(SummaryPromptFor(goal, profiles), env).value;
      r == Ok(PlanSummary(goalId, answer.overview, answer.phases, answer.estimatedDurationDays))
  {
    match RequestSummary(SummaryPromptFor(goal, profiles), env)
    case Ok(answer) => Ok(PlanSummary(goalId, answer.overview, answer.phases, answer.estimatedDurationDays))
    case Err(ClientError(_)) => Ok(FallbackSummary(goalId, goal.title))
    case Err(PayloadNotAMapping) => Err(FromGateway(PayloadNotAMapping))
  }

  /** The target date written back to the goal (only when it has none) and the new plan persisted. */
  function RecordSummary(db: Db, goal: Goal, s: PlanSummary, env: Env): Db {
    var target := ResolveTargetDate(goal.targetDate, goal.description, s.estimatedDurationDays, env.today);
    var goals := if goal.targetDate.None? then SetTargetDate(db.goals, goal.id, target) else db.goals;
    PersistPlanSummary(db.(goals := goals), goal.id, s, env.modelName, target,
                       ParseDailyTime(goal.description.GetOr("")), env.freshPlanId, env.now)
  }

  /** `_generate_task_plan`: best effort, every failure is swallowed and leaves the tables as they were. */
  function WithTaskPlan(db: Db, goalId: Id, env: Env): (r: Db)
    ensures r.goals == db.goals && r.profiles == db.profiles
    ensures SameRanking(db.plans, r.plans)
    ensures GenerateTaskPlanForGoal(db, goalId, None, env).Err? ==> r == db
  {
    match GenerateTaskPlanForGoal(db, goalId, None, env)
    case Ok(g) => g.db
    case Err(_) => db
  }

  /** `get_or_generate_plan_summary` */
  function GetOrGeneratePlanSummary(db: Db, goalId: Id, env: Env): (r: Result<SummaryOutcome, ServiceError>)
    ensures CachedSummary(db, goalId, env.pyStr).Err? ==> r == Err(CachedSummary(db, goalId, env.pyStr).error)
    ensures CachedSummary(db, goalId, env.pyStr).Ok? && CachedSummary(db, goalId, env.pyStr).value.Some? ==>
      r == Ok(SummaryOutcome(CachedSummary(db, goalId, env.pyStr).value.value, db))
    ensures CachedSummary(db, goalId, env.pyStr) == Ok(None) && FindGoal(db.goals, goalId).None? ==> r == Err(GoalNotFound)
    ensures r.Err? ==> r.error.GoalNotFound? || r.error.Unexpected?
    ensures r.Ok? ==> r.value.summary.goalId == goalId && r.value.db.profiles == db.profiles
    ensures CachedSummary(db, goalId, env.pyStr) == Ok(None) && FindGoal(db.goals, goalId).Some? ==>
      var request := RequestSummary(SummaryPromptFor(FindGoal(db.goals, goalId).value, db.profiles), env);
      request.Err? && request.error.ClientError? ==>
        r.Ok? && r.value.summary == FallbackSummary(goalId, FindGoal(db.goals, goalId).value.title)
    ensures CachedSummary(db, goalId, env.pyStr) == Ok(None) && FindGoal(db.goals, goalId).Some? ==>
      var request := RequestSummary(SummaryPromptFor(FindGoal(db.goals, goalId).value, db.profiles), env);
      request.Ok? ==>
        r.Ok? && r.value.summary == PlanSummary(goalId, request.value.overview, request.value.phases, request.value.estimatedDurationDays)
    ensures CachedSummary(db, goalId, env.pyStr) == Ok(None) && FindGoal(db.goals, goalId).Some? ==>
      var s := SummaryFor(goalId, FindGoal(db.goals, goalId).value, db.profiles, env);
      (r.Ok? <==> s.Ok?) && (r.Ok? ==> r.value.summary == s.value)
  {
    var cached :- CachedSummary(db, goalId, env.pyStr);
    if cached.Some? then Ok(SummaryOutcome(cached.value, db))
    else
      match FindGoal(db.goals, goalId)
      case None => Err(GoalNotFound)
      case Some(goal) =>
        var summary :- SummaryFor(goalId, goal, db.profiles, env);
        var persisted := RecordSummary(db, goal, summary, env);
        Ok(SummaryOutcome(summary, WithTaskPlan(persisted, goalId, env)))
  }

  // ------------------------------------------------------- after a request

  lemma {:induction false} FindGoalAfterSetTarget(goals: seq<Goal>, goalId: Id, target: Date)
    requires FindGoal(goals, goalId).Some?
    ensures FindGoal(SetTargetDate(goals, goalId, target), goalId)
         == Some(FindGoal(goals, goalId).value.(targetDate := Some(target)))
  {
    var updated := SetTargetDate(goals, goalId, target);
    if goals[0].id != goalId {
      assert updated[1..] == SetTargetDate(goals[1..], goalId, target);
      FindGoalAfterSetTarget(goals[1..], goalId, target);
    }
  }

  /** The goal as the request leaves it: a target date only if it had none, pointing at the new plan. */
  function UpdatedGoal(goal: Goal, s: PlanSummary, env: Env): Goal {
    var target := ResolveTargetDate(goal.targetDate, goal.description, s.estimatedDurationDays, env.today);
    goal.(targetDate := Some(goal.targetDate.GetOr(target)), currentPlanId := Some(env.freshPlanId))
  }

  /** The new plan sits at index `n`, is the goal's only active plan and ranks first. */
  ghost predicate NewPlanOnTop(plans: seq<Plan>, n: nat, goalId: Id, planId: Id) {
    && n < |plans| && plans[n].id == planId
    && LatestPlan(plans, goalId) == Some(plans[n])
    && (forall i :: 0 <= i < |plans| && plans[i].goalId == goalId && plans[i].isActive ==> i == n)
  }

  lemma PersistedPlans(db: Db, goalId: Id, s: PlanSummary, modelName: string, target: Date,
                       dailyMinutes: Option<int>, planId: Id, now: int)
    ensures var r := PersistPlanSummary(db, goalId, s, modelName, target, dailyMinutes, planId, now);
      && NewPlanOnTop(r.plans, |db.plans|, goalId, planId)
      && r.plans[|db.plans|].planJson == JObj(PlanPayloadFromSummary(s, dailyMinutes))
      && (forall i :: 0 <= i < |db.plans| ==> r.plans[i].id == db.plans[i].id)
  {
    PersistedPlanIsLatest(db, goalId, s, modelName, target, dailyMinutes, planId, now);
  }

  /** The goal after its summary is recorded. */
  lemma RecordedGoal(db: Db, goal: Goal, s: PlanSummary, env: Env)
    requires FindGoal(db.goals, goal.id) == Some(goal)
    ensures FindGoal(RecordSummary(db, goal, s, env).goals, goal.id) == Some(UpdatedGoal(goal, s, env))
  {
    var target := ResolveTargetDate(goal.targetDate, goal.description, s.estimatedDurationDays, env.today);
    var goals := if goal.targetDate.None? then SetTargetDate(db.goals, goal.id, target) else db.goals;
    assert RecordSummary(db, goal, s, env).goals == SetCurrentPlan(goals, goal.id, env.freshPlanId);
    WrittenBackGoal(db.goals, goal, target);
    FindGoalAfterSetCurrent(goals, goal.id, env.freshPlanId);
  }

  lemma WrittenBackGoal(goals: seq<Goal>, goal: Goal, target: Date)
    requires FindGoal(goals, goal.id) == Some(goal)
    ensures var written := if goal.targetDate.None? then SetTargetDate(goals, goal.id, target) else goals;
      FindGoal(written, goal.id) == Some(goal.(targetDate := Some(goal.targetDate.GetOr(target))))
  {
    if goal.targetDate.None? {
      FindGoalAfterSetTarget(goals, goal.id, target);
    }
  }

  /** What recording a summary leaves behind: the updated goal, and the new plan appended as the
      goal's only active plan, the one the plan queries rank first. */
  lemma RecordedState(db: Db, goal: Goal, s: PlanSummary, env: Env)
    requires FindGoal(db.goals, goal.id) == Some(goal)
    ensures var r := RecordSummary(db, goal, s, env);
      && FindGoal(r.goals, goal.id) == Some(UpdatedGoal(goal, s, env))
      && |r.plans| == |db.plans| + 1
      && NewPlanOnTop(r.plans, |db.plans|, goal.id, env.freshPlanId)
      && r.plans[|db.plans|].planJson == JObj(PlanPayloadFromSummary(s, ParseDailyTime(goal.description.GetOr(""))))
      && (forall i :: 0 <= i < |db.plans| ==> r.plans[i].id == db.plans[i].id)
  {
    var target := ResolveTargetDate(goal.targetDate, goal.description, s.estimatedDurationDays, env.today);
    var goals := if goal.targetDate.None? then SetTargetDate(db.goals, goal.id, target) else db.goals;
    var daily := ParseDailyTime(goal.description.GetOr(""));
    var base := db.(goals := goals);
    assert RecordSummary(db, goal, s, env)
        == PersistPlanSummary(base, goal.id, s, env.modelName, target, daily, env.freshPlanId, env.now);
    RecordedGoal(db, goal, s, env);
    PersistedPlans(base, goal.id, s, env.modelName, target, daily, env.freshPlanId, env.now);
  }

  /** A request that misses the cache and succeeds records its summary, then tries task generation. */
  lemma MissedCache(db: Db, goalId: Id, env: Env)
    requires CachedSummary(db, goalId, env.pyStr) == Ok(None)
    requires GetOrGeneratePlanSummary(db, goalId, env).Ok?
    ensures FindGoal(db.goals, goalId).Some?
    ensures var after := GetOrGeneratePlanSummary(db, goalId, env).value;
      after.db == WithTaskPlan(RecordSummary(db, FindGoal(db.goals, goalId).value, after.summary, env), goalId, env)
  {
  }

  lemma CacheHit(db: Db, goalId: Id, env: Env, c: PlanSummary)
    requires CachedSummary(db, goalId, env.pyStr) == Ok(Some(c))
    ensures GetOrGeneratePlanSummary(db, goalId, env) == Ok(SummaryOutcome(c, db))
  {
  }

  /** A request that missed the cache and succeeded leaves the goal with its target date (set
      only when it had none) pointing at the new plan, which is the goal's only active plan and
      the top-ranked one, whether or not task generation succeeded. */
  lemma {:induction false} RequestActivatesNewPlan(db: Db, goalId: Id, env: Env)
    requires CachedSummary(db, goalId, env.pyStr) == Ok(None)
    requires GetOrGeneratePlanSummary(db, goalId, env).Ok?
    ensures FindGoal(db.goals, goalId).Some?
    ensures var after := GetOrGeneratePlanSummary(db, goalId, env).value;
      && FindGoal(after.db.goals, goalId) == Some(UpdatedGoal(FindGoal(db.goals, goalId).value, after.summary, env))
      && |after.db.plans| == |db.plans| + 1
      && LatestPlan(after.db.plans, goalId).Some? && LatestPlan(after.db.plans, goalId).value.id == env.freshPlanId
      && (forall i :: 0 <= i < |after.db.plans| && after.db.plans[i].goalId == goalId && after.db.plans[i].isActive ==> i == |db.plans|)
  {
    MissedCache(db, goalId, env);
    var goal := FindGoal(db.goals, goalId).value;
    var after := GetOrGeneratePlanSummary(db, goalId, env).value;
    var persisted := RecordSummary(db, goal, after.summary, env);
    RecordedState(db, goal, after.summary, env);
    TopSurvivesRanking(persisted.plans, after.db.plans, |db.plans|, goalId, env.freshPlanId);
  }

  /** Rewriting columns the plan queries ignore keeps the new plan on top. */
  lemma TopSurvivesRanking(a: seq<Plan>, b: seq<Plan>, n: nat, goalId: Id, planId: Id)
    requires NewPlanOnTop(a, n, goalId, planId) && SameRanking(a, b)
    ensures |b| == |a|
    ensures LatestPlan(b, goalId).Some? && LatestPlan(b, goalId).value.id == planId
    ensures forall i :: 0 <= i < |b| && b[i].goalId == goalId && b[i].isActive ==> i == n
  {
    LatestPlanSameRanking(a, b, goalId);
  }

  /** When task generation fails, the next request is answered from the cache with the summary
      just produced and changes nothing. */
  lemma RepeatAfterFailedGeneration(db: Db, goalId: Id, env: Env, next: Env)
    requires CachedSummary(db, goalId, env.pyStr) == Ok(None) && FindGoal(db.goals, goalId).Some?
    requires forall i :: 0 <= i < |db.plans| ==> db.plans[i].id != env.freshPlanId
    requires GetOrGeneratePlanSummary(db, goalId, env).Ok?
    requires GenerateTaskPlanForGoal(RecordSummary(db, FindGoal(db.goals, goalId).value,
                                                   GetOrGeneratePlanSummary(db, goalId, env).value.summary, env),
                                     goalId, None, env).Err?
    ensures var after := GetOrGeneratePlanSummary(db, goalId, env).value;
      GetOrGeneratePlanSummary(after.db, goalId, next) == Ok(SummaryOutcome(after.summary, after.db))
  {
    MissedCache(db, goalId, env);
    var goal := FindGoal(db.goals, goalId).value;
    var after := GetOrGeneratePlanSummary(db, goalId, env).value;
    var s := after.summary;
    var target := ResolveTargetDate(goal.targetDate, goal.description, s.estimatedDurationDays, env.today);
    var goals := if goal.targetDate.None? then SetTargetDate(db.goals, goal.id, target) else db.goals;
    var daily := ParseDailyTime(goal.description.GetOr(""));
    assert FindGoal(goals, goalId).Some? by {
      if goal.targetDate.None? {
        FindGoalAfterSetTarget(db.goals, goal.id, target);
      }
    }
    assert after.db == PersistPlanSummary(db.(goals := goals), goalId, s, env.modelName, target, daily, env.freshPlanId, env.now);
    PersistedSummaryIsCached(db.(goals := goals), goalId, s, env.modelName, target, daily, env.freshPlanId, env.now, next.pyStr);
    CacheHit(after.db, goalId, next, s);
  }

  /** A goal pointing at a plan, the only one with its id, that holds a dumped task plan reads
      from the cache as an empty summary. */
  lemma CachedTaskPlan(d: Db, goalId: Id, n: nat, p: TaskPlanResult, formatIsoDate: Date -> string, render: Json -> string)
    requires n < |d.plans|
    requires FindGoal(d.goals, goalId).Some? && FindGoal(d.goals, goalId).value.currentPlanId == Some(d.plans[n].id)
    requires forall i :: 0 <= i < |d.plans| && i != n ==> d.plans[i].id != d.plans[n].id
    requires d.plans[n].planJson == DumpTaskPlan(p, formatIsoDate)
    ensures CachedSummary(d, goalId, render) == Ok(Some(PlanSummary(goalId, "", [], None)))
  {
    var dump := DumpTaskPlan(p, formatIsoDate);
    FindUniquePlan(d.plans, n);
    assert JoinedPayload(d, goalId) == Some(dump);
    assert "goal_id" in dump.fields;
    TaskPlanPayloadReadsAsEmptySummary(goalId, p, formatIsoDate, render);
    CachedFromObject(d, goalId, dump.fields, render);
  }

  /** Generation rewrites the payload of the top-ranked plan in place: with a unique id at index
      `n`, that row now holds the dump of the generated plan and the ids stay unique. */
  lemma GeneratedIntoPlan(d: Db, goalId: Id, n: nat, env: Env)
    requires n < |d.plans| && LatestPlan(d.plans, goalId) == Some(d.plans[n])
    requires forall i :: 0 <= i < |d.plans| && i != n ==> d.plans[i].id != d.plans[n].id
    requires GenerateTaskPlanForGoal(d, goalId, None, env).Ok?
    ensures var g := GenerateTaskPlanForGoal(d, goalId, None, env).value;
      && g.db.goals == d.goals && |g.db.plans| == |d.plans| && g.db.plans[n].id == d.plans[n].id
      && (forall i :: 0 <= i < |g.db.plans| && i != n ==> g.db.plans[i].id != d.plans[n].id)
      && g.db.plans[n].planJson == DumpTaskPlan(g.plan, env.formatIsoDate)
  {
    var g := GenerateTaskPlanForGoal(d, goalId, None, env).value;
    GenerationStoresPlan(d, goalId, None, env);
    var top := LatestPlan(g.db.plans, goalId).value;
    var k :| 0 <= k < |g.db.plans| && g.db.plans[k] == top;
    assert k == n;
  }

  /** The cache read after a successful generation that followed recording a summary. */
  lemma CachedAfterGeneration(db: Db, goal: Goal, s: PlanSummary, env: Env, render: Json -> string)
    requires FindGoal(db.goals, goal.id) == Some(goal)
    requires forall i :: 0 <= i < |db.plans| ==> db.plans[i].id != env.freshPlanId
    requires GenerateTaskPlanForGoal(RecordSummary(db, goal, s, env), goal.id, None, env).Ok?
    ensures CachedSummary(WithTaskPlan(RecordSummary(db, goal, s, env), goal.id, env), goal.id, render)
         == Ok(Some(PlanSummary(goal.id, "", [], None)))
  {
    var persisted := RecordSummary(db, goal, s, env);
    RecordedTop(db, goal, s, env);
    CachedAfterGenerationAt(persisted, goal.id, |db.plans|, env, render);
  }

  /** After recording, the new plan at index `n` ranks first, has a unique id and is the goal's current plan. */
  lemma RecordedTop(db: Db, goal: Goal, s: PlanSummary, env: Env)
    requires FindGoal(db.goals, goal.id) == Some(goal)
    requires forall i :: 0 <= i < |db.plans| ==> db.plans[i].id != env.freshPlanId
    ensures var d := RecordSummary(db, goal, s, env);
      && |db.plans| < |d.plans| && LatestPlan(d.plans, goal.id) == Some(d.plans[|db.plans|])
      && (forall i :: 0 <= i < |d.plans| && i != |db.plans| ==> d.plans[i].id != d.plans[|db.plans|].id)
      && FindGoal(d.goals, goal.id).Some? && FindGoal(d.goals, goal.id).value.currentPlanId == Some(d.plans[|db.plans|].id)
  {
    RecordedState(db, goal, s, env);
  }

  /** The cache read after a successful generation over a table whose top plan at `n` is the goal's current plan. */
  lemma CachedAfterGenerationAt(d: Db, goalId: Id, n: nat, env: Env, render: Json -> string)
    requires n < |d.plans| && LatestPlan(d.plans, goalId) == Some(d.plans[n])
    requires forall i :: 0 <= i < |d.plans| && i != n ==> d.plans[i].id != d.plans[n].id
    requires FindGoal(d.goals, goalId).Some? && FindGoal(d.goals, goalId).value.currentPlanId == Some(d.plans[n].id)
    requires GenerateTaskPlanForGoal(d, goalId, None, env).Ok?
    ensures CachedSummary(WithTaskPlan(d, goalId, env), goalId, render) == Ok(Some(PlanSummary(goalId, "", [], None)))
  {
    var g := GenerateTaskPlanForGoal(d, goalId, None, env).value;
    GeneratedIntoPlan(d, goalId, n, env);
    CachedTaskPlan(g.db, goalId, n, g.plan, env.formatIsoDate, render);
  }

  /**
   * When task generation succeeds it overwrites the new plan's payload with the task plan, which
   * has no overview, phases or duration: the next request is answered from the cache with an
   * empty summary.
   */
  lemma RepeatAfterGeneration(db: Db, goalId: Id, env: Env, next: Env)
    requires CachedSummary(db, goalId, env.pyStr) == Ok(None) && FindGoal(db.goals, goalId).Some?
    requires forall i :: 0 <= i < |db.plans| ==> db.plans[i].id != env.freshPlanId
    requires GetOrGeneratePlanSummary(db, goalId, env).Ok?
    requires GenerateTaskPlanForGoal(RecordSummary(db, FindGoal(db.goals, goalId).value,
                                                   GetOrGeneratePlanSummary(db, goalId, env).value.summary, env),
                                     goalId, None, env).Ok?
    ensures var after := GetOrGeneratePlanSummary(db, goalId, env).value;
      GetOrGeneratePlanSummary(after.db, goalId, next) == Ok(SummaryOutcome(PlanSummary(goalId, "", [], None), after.db))
  {
    MissedCache(db, goalId, env);
    var after := GetOrGeneratePlanSummary(db, goalId, env).value;
    CachedAfterGeneration(db, FindGoal(db.goals, goalId).value, after.summary, env, next.pyStr);
    CacheHit(after.db, goalId, next, PlanSummary(goalId, "", [], None));
  }
}

=== FILE: plan_tasks.dfy ===
/**
 * The task-plan service: how a generation request picks its date range, how
 * the planner's days are normalised, how the plan's task rows are replaced,
 * and how one day's tasks are read back.
 */
module PlanTasks {
  import opened Wrappers
  import opened Json
  import opened Seqs
  import opened Schema
  import opened LlmClient
  import opened Store

  const DefaultPlanDurationDays := 30

  // ---------------------------------------------------------------- scheduling

  /** `_positive_int`: booleans and non-numbers give None, positive numbers their
      integer part. A positive float below 1 gives `Some(0)`, which later reads as falsy. */
  function PositiveInt(v: Option<Json>): (r: Option<int>)
    ensures r.Some? ==> r.value >= 0
    ensures r.Some? ==> v.Some? && (v.value.JInt? || v.value.JFloat?)
    ensures v.Some? && v.value.JInt? ==> (r.Some? <==> v.value.i > 0)
    ensures v.Some? && v.value.JInt? && v.value.i > 0 ==> r == Some(v.value.i)
    ensures v.Some? && v.value.JFloat? ==> (r.Some? <==> v.value.f > 0.0)
    ensures v.Some? && v.value.JFloat? && v.value.f > 0.0 ==>
      r.value as real <= v.value.f < r.value as real + 1.0
  {
    match v
    case Some(JInt(i)) => if i > 0 then Some(i) else None
    case Some(JFloat(f)) => if f > 0.0 then Some(Trunc(f)) else None
    case _ => None
  }

  /** Python truthiness of an optional integer. */
  predicate IntTruthy(o: Option<int>) {
    o.Some? && o.value != 0
  }

  /** The planned horizon stored in a plan payload: `time_horizon_days`, else `estimated_duration_days`
      (each through `_positive_int`, combined with `or`). */
  function HorizonFromPayload(payload: map<string, Json>): (r: Option<int>)
    ensures r.Some? ==> r.value >= 0
    ensures IntTruthy(PositiveInt(Get(payload, "time_horizon_days"))) ==> r == PositiveInt(Get(payload, "time_horizon_days"))
    ensures !IntTruthy(PositiveInt(Get(payload, "time_horizon_days"))) ==> r == PositiveInt(Get(payload, "estimated_duration_days"))
  {
    var first := PositiveInt(Get(payload, "time_horizon_days"));
    if IntTruthy(first) then first else PositiveInt(Get(payload, "estimated_duration_days"))
  }

  datatype Schedule = Schedule(startDate: Date, targetDate: Date)

  /**
   * The date range of a generation. Start: explicit override, goal start, payload start,
   * target minus (horizon - 1) when both are known, today. Target: plan target, goal
   * target, start + (horizon or 30) - 1. The target therefore always exists, and the
   * "target date missing" error is never returned.
   */
  function ResolveSchedule(override: Option<Date>, goalStart: Option<Date>, payloadStart: Option<Date>,
                           planTarget: Option<Date>, goalTarget: Option<Date>, horizon: Option<int>,
                           today: Date): (r: Result<Schedule, ServiceError>)
    ensures r.Ok?
    ensures override.Some? ==> r.value.startDate == override.value
    ensures override.None? && goalStart.Some? ==> r.value.startDate == goalStart.value
    ensures override.None? && goalStart.None? && payloadStart.Some? ==> r.value.startDate == payloadStart.value
    ensures override.None? && goalStart.None? && payloadStart.None? && ((planTarget.None? && goalTarget.None?) || !IntTruthy(horizon)) ==>
      r.value.startDate == today
    ensures planTarget.Some? ==> r.value.targetDate == planTarget.value
    ensures planTarget.None? && goalTarget.Some? ==> r.value.targetDate == goalTarget.value
    ensures override.None? && goalStart.None? && payloadStart.None? && planTarget.OrElse(goalTarget).Some? && IntTruthy(horizon) ==>
      r.value.startDate == planTarget.OrElse(goalTarget).value - (horizon.value - 1)
    ensures planTarget.None? && goalTarget.None? ==>
      r.value.targetDate == r.value.startDate + (if IntTruthy(horizon) then horizon.value else DefaultPlanDurationDays) - 1
  {
    var target := planTarget.OrElse(goalTarget);
    var start :=
      match override.OrElse(goalStart).OrElse(payloadStart)
      case Some(d) => d
      case None =>
        if target.Some? && IntTruthy(horizon) then target.value - (horizon.value - 1) else today;
    var resolvedTarget :=
      match target
      case Some(t) => Some(t)
      case None =>
        var fallback := if IntTruthy(horizon) then horizon.value else DefaultPlanDurationDays;
        Some(start + fallback - 1);
    if resolvedTarget.None? then Err(GoalTargetDateMissing)
    else Ok(Schedule(start, resolvedTarget.value))
  }

  /** `max((target - start).days + 1, 1)`: the inclusive day count, at least one. */
  function ExpectedDays(s: Schedule): (r: int)
    ensures r >= 1
    ensures s.startDate <= s.targetDate ==> r == s.targetDate - s.startDate + 1
    ensures s.targetDate < s.startDate ==> r == 1
  {
    if s.targetDate - s.startDate + 1 > 1 then s.targetDate - s.startDate + 1 else 1
  }

  /** Without a stored target, the range spans exactly the payload's horizon (or 30 days);
      with a target but no start, it spans the horizon ending at the target. */
  lemma ScheduleSpansHorizon(override: Option<Date>, goalStart: Option<Date>, payloadStart: Option<Date>,
                             planTarget: Option<Date>, goalTarget: Option<Date>, horizon: Option<int>, today: Date)
    requires horizon.Some? ==> horizon.value >= 0
    ensures planTarget.None? && goalTarget.None? ==>
      ExpectedDays(ResolveSchedule(override, goalStart, payloadStart, planTarget, goalTarget, horizon, today).value)
        == (if IntTruthy(horizon) then horizon.value else DefaultPlanDurationDays)
    ensures override.None? && goalStart.None? && payloadStart.None? && (planTarget.Some? || goalTarget.Some?) && IntTruthy(horizon) ==>
      ExpectedDays(ResolveSchedule(override, goalStart, payloadStart, planTarget, goalTarget, horizon, today).value) == horizon.value
  {
  }

  // ------------------------------------------------------------- normalisation

  function DayIndexOf(d: TaskPlanDay): int {
    d.dayIndex
  }

  /** Two days that differ at most in their index. */
  predicate SameContent(a: TaskPlanDay, b: TaskPlanDay) {
    a.dayLabel == b.dayLabel && a.focus == b.focus && a.tasks == b.tasks
  }

  /**
   * `_normalize_task_plan`: an empty plan is returned as it is; otherwise the days are
   * sorted by index (stably), renumbered 0..N-1, cut to `expectedDays` when that is
   * positive, and the horizon is set to the number of days kept. Nothing else changes.
   */
  function NormalizeTaskPlan(plan: TaskPlanResult, expectedDays: int): (r: TaskPlanResult)
    ensures |plan.days| == 0 ==> r == plan
    ensures r.(days := plan.days, timeHorizonDays := plan.timeHorizonDays) == plan
    ensures |plan.days| > 0 ==> |r.days| == (if 0 < expectedDays < |plan.days| then expectedDays else |plan.days|)
    ensures |plan.days| > 0 ==> r.timeHorizonDays == |r.days|
    ensures |plan.days| > 0 ==> Contiguous(r.days)
    ensures forall k :: 0 <= k < |r.days| ==> SameContent(r.days[k], SortBy(plan.days, DayIndexOf)[k])
  {
    if |plan.days| == 0 then plan
    else
      var sorted := SortBy(plan.days, DayIndexOf);
      var renumbered := Renumber(sorted);
      var horizon := if expectedDays > 0 then expectedDays else |renumbered|;
      var trimmed := if horizon < |renumbered| then renumbered[..horizon] else renumbered;
      assert forall k :: 0 <= k < |trimmed| ==> trimmed[k] == sorted[k].(dayIndex := k);
      plan.(days := trimmed, timeHorizonDays := |trimmed|)
  }

  /** The days renumbered 0..N-1 in their current order. */
  function Renumber(days: seq<TaskPlanDay>): (r: seq<TaskPlanDay>)
    ensures |r| == |days| && Contiguous(r)
    ensures forall k :: 0 <= k < |r| ==> r[k] == days[k].(dayIndex := k)
  {
    seq(|days|, k requires 0 <= k < |days| => days[k].(dayIndex := k))
  }

  /** The kept days are the days of smallest original index, in index order, equal
      indices keeping the planner's order. */
  lemma NormalizeKeepsIndexOrder(plan: TaskPlanResult)
    ensures var sorted := SortBy(plan.days, DayIndexOf);
      && multiset(sorted) == multiset(plan.days)
      && SortedBy(sorted, DayIndexOf)
      && (forall k :: WithKey(sorted, DayIndexOf, k) == WithKey(plan.days, DayIndexOf, k))
  {
    SortByPermutes(plan.days, DayIndexOf);
    forall k ensures WithKey(SortBy(plan.days, DayIndexOf), DayIndexOf, k) == WithKey(plan.days, DayIndexOf, k) {
      SortByStable(plan.days, DayIndexOf, k);
    }
  }

  /** Normalising a valid plan with a positive expected length gives a valid plan
      whose days are numbered 0..N-1 and whose horizon is N >= 1. */
  lemma NormalizePreservesValidity(plan: TaskPlanResult, expectedDays: int)
    requires ValidResult(plan)
    requires expectedDays >= 1
    ensures var r := NormalizeTaskPlan(plan, expectedDays);
      ValidResult(r) && Contiguous(r.days) && r.timeHorizonDays == |r.days| >= 1 && |r.days| <= expectedDays
  {
    var r := NormalizeTaskPlan(plan, expectedDays);
    var sorted := SortBy(plan.days, DayIndexOf);
    SortByPermutes(plan.days, DayIndexOf);
    forall k | 0 <= k < |r.days| ensures ValidDay(r.days[k]) {
      assert sorted[k] in multiset(plan.days);
      var i :| 0 <= i < |plan.days| && plan.days[i] == sorted[k];
      assert ValidDay(plan.days[i]);
    }
  }

  // The four-day example below, one insertion at a time.

  lemma {:induction false} InsertThird<T>(a: T, b: T, c: T, d: T, key: T -> int)
    requires key(b) < key(a) && key(d) < key(a) && key(a) <= key(c)
    ensures Insert(a, [b, d, c], key) == [b, d, a, c]
  {
    InsertStep(a, [b, d, c], key);
    assert [b, d, c][1..] == [d, c];
    InsertStep(a, [d, c], key);
    assert [d, c][1..] == [c];
    InsertStep(a, [c], key);
    assert Insert(a, [c], key) == [a, c];
    assert Insert(a, [d, c], key) == [d, a, c];
  }

  lemma {:induction false} SortTwo<T>(c: T, d: T, key: T -> int)
    requires key(d) < key(c)
    ensures SortBy([c, d], key) == [d, c]
  {
    SortByCons([d], key);
    assert [d][1..] == [];
    SortByCons([c, d], key);
    assert [c, d][1..] == [d];
    InsertStep(c, [d], key);
  }

  lemma {:induction false} SortThree<T>(b: T, c: T, d: T, key: T -> int)
    requires key(b) <= key(d) < key(c)
    ensures SortBy([b, c, d], key) == [b, d, c]
  {
    SortTwo(c, d, key);
    SortByCons([b, c, d], key);
    assert [b, c, d][1..] == [c, d];
    InsertStep(b, [d, c], key);
  }

  lemma {:induction false} SortFour<T>(a: T, b: T, c: T, d: T, key: T -> int)
    requires key(b) <= key(d) < key(a) <= key(c)
    ensures SortBy([a, b, c, d], key) == [b, d, a, c]
  {
    SortThree(b, c, d, key);
    SortByCons([a, b, c, d], key);
    assert [a, b, c, d][1..] == [b, c, d];
    InsertThird(a, b, c, d, key);
  }

  lemma SortExample(a: TaskPlanDay, b: TaskPlanDay, c: TaskPlanDay, d: TaskPlanDay)
    requires a.dayIndex == 2 && b.dayIndex == 0 && c.dayIndex == 5 && d.dayIndex == 1
    ensures SortBy([a, b, c, d], DayIndexOf) == [b, d, a, c]
  {
    SortFour(a, b, c, d, DayIndexOf);
  }

  /** Day `k` of a normalised plan is day `k` of the index-sorted days, renumbered `k`. */
  lemma NormalizedDay(plan: TaskPlanResult, expectedDays: int, k: int)
    requires 0 <= k < |NormalizeTaskPlan(plan, expectedDays).days|
    requires |plan.days| > 0
    ensures NormalizeTaskPlan(plan, expectedDays).days[k] == SortBy(plan.days, DayIndexOf)[k].(dayIndex := k)
  {
  }

  /** The example of a planner returning days numbered [2, 0, 5, 1] when three days are
      expected: the days numbered 0, 1, 2 are kept in that order, renumbered, horizon 3. */
  lemma NormalizeExample(a: TaskPlanDay, b: TaskPlanDay, c: TaskPlanDay, d: TaskPlanDay, plan: TaskPlanResult)
    requires a.dayIndex == 2 && b.dayIndex == 0 && c.dayIndex == 5 && d.dayIndex == 1
    requires plan.days == [a, b, c, d]
    ensures var r := NormalizeTaskPlan(plan, 3);
      && r.days == [b.(dayIndex := 0), d.(dayIndex := 1), a.(dayIndex := 2)]
      && r.timeHorizonDays == 3
  {
    SortExample(a, b, c, d);
    var r := NormalizeTaskPlan(plan, 3);
    assert |r.days| == 3;
    assert r.days[0] == b.(dayIndex := 0) by { NormalizedDay(plan, 3, 0); }
    assert r.days[1] == d.(dayIndex := 1) by { NormalizedDay(plan, 3, 1); }
    assert r.days[2] == a.(dayIndex := 2) by { NormalizedDay(plan, 3, 2); }
    ThreeDays(r.days, b.(dayIndex := 0), d.(dayIndex := 1), a.(dayIndex := 2));
  }

  lemma ThreeDays(days: seq<TaskPlanDay>, x: TaskPlanDay, y: TaskPlanDay, z: TaskPlanDay)
    requires |days| == 3 && days[0] == x && days[1] == y && days[2] == z
    ensures days == [x, y, z]
  {
  }

  // ----------------------------------------------------------- stored target

  /** The largest day index of a non-empty day list. */
  function MaxDayIndex(days: seq<TaskPlanDay>): (r: int)
    requires |days| > 0
    ensures forall i :: 0 <= i < |days| ==> days[i].dayIndex <= r
    ensures exists i :: 0 <= i < |days| && days[i].dayIndex == r
  {
    if |days| == 1 then days[0].dayIndex
    else
      var rest := MaxDayIndex(days[1..]);
      assert forall i :: 1 <= i < |days| ==> days[i] == days[1..][i - 1];
      if days[0].dayIndex >= rest then days[0].dayIndex else rest
  }

  /** `_compute_task_plan_target_date`: the date of the last day. The no-days branch cannot be
      reached after validation (`days` has at least one item); there the inclusive range from
      the start covers the horizon, and at least one day. */
  function TaskPlanTargetDate(plan: TaskPlanResult): (r: Date)
    ensures |plan.days| > 0 ==> forall i :: 0 <= i < |plan.days| ==> plan.startDate + plan.days[i].dayIndex <= r
    ensures |plan.days| > 0 ==> exists i :: 0 <= i < |plan.days| && r == plan.startDate + plan.days[i].dayIndex
    ensures |plan.days| == 0 ==> r - plan.startDate + 1 == (if plan.timeHorizonDays > 1 then plan.timeHorizonDays else 1)
  {
    var lastDayIndex :=
      if |plan.days| > 0 then MaxDayIndex(plan.days)
      else
        var h := if plan.timeHorizonDays != 0 then plan.timeHorizonDays else 1;
        (if h > 1 then h else 1) - 1;
    plan.startDate + lastDayIndex
  }

  /** After normalising a non-empty plan the stored target is the date of its last day. */
  lemma NormalizedTargetIsLastDay(plan: TaskPlanResult, expectedDays: int)
    requires |plan.days| > 0
    ensures var r := NormalizeTaskPlan(plan, expectedDays);
      TaskPlanTargetDate(r) == r.startDate + |r.days| - 1
  {
    var r := NormalizeTaskPlan(plan, expectedDays);
    assert r.days[|r.days| - 1].dayIndex == |r.days| - 1;
  }

  // ------------------------------------------------------------- task rows

  const RequiredTaskColumns: set<string> := {"goal_id", "planned_date", "task_type", "status", "updated_at"}

  /** `_supports_extended_task_schema`: a cached answer is reused; otherwise the tasks table
      must report every column the extended insert writes. */
  function SupportsExtendedSchema(cached: Option<bool>, columns: set<string>): (r: bool)
    ensures cached.Some? ==> r == cached.value
    ensures cached.None? ==>
      (r <==> "goal_id" in columns && "planned_date" in columns && "task_type" in columns
              && "status" in columns && "updated_at" in columns)
  {
    match cached
    case Some(b) => b
    case None => RequiredTaskColumns <= columns
  }

  /** The columns every row of one replacement shares, and which insert statement is used. */
  datatype RowContext = RowContext(planId: Id, goalId: Id, startDate: Date, extended: bool)

  /** What the row inserted for `task` holds: the extended insert also fills the goal, the
      planned date (start + day index), the type "core" and the status "pending". */
  predicate RowOf(row: TaskRow, task: TaskPlanTask, dayIndex: int, ctx: RowContext, id: Id, order: int) {
    && row.id == id && row.planId == ctx.planId && row.dayIndex == dayIndex && row.orderInDay == order
    && row.description == Some(task.description) && row.estimatedMinutes == Some(task.estimatedMinutes)
    && row.completedAt.None?
    && (ctx.extended ==>
         && row.goalId == Some(ctx.goalId) && row.plannedDate == Some(ctx.startDate + dayIndex)
         && row.taskType == Some("core") && row.status == Some("pending"))
    && (!ctx.extended ==> row.goalId.None? && row.plannedDate.None? && row.taskType.None? && row.status.None?)
  }

  function NewRow(task: TaskPlanTask, dayIndex: int, ctx: RowContext, id: Id, order: int): TaskRow {
    if ctx.extended then
      TaskRow(id, Some(ctx.goalId), ctx.planId, dayIndex, order, Some(task.description), Some(task.estimatedMinutes),
              Some(ctx.startDate + dayIndex), Some("core"), Some("pending"), None)
    else
      TaskRow(id, None, ctx.planId, dayIndex, order, Some(task.description), Some(task.estimatedMinutes),
              None, None, None, None)
  }

  /** One insert per task, in list order: task `j` gets order `order + j` and id `nextId + j`. */
  function TaskRows(tasks: seq<TaskPlanTask>, dayIndex: int, ctx: RowContext, nextId: Id, order: int): (r: seq<TaskRow>)
    ensures |r| == |tasks|
    ensures forall j :: 0 <= j < |r| ==> RowOf(r[j], tasks[j], dayIndex, ctx, nextId + j, order + j)
  {
    if |tasks| == 0 then []
    else [NewRow(tasks[0], dayIndex, ctx, nextId, order)] + TaskRows(tasks[1..], dayIndex, ctx, nextId + 1, order + 1)
  }

  /** The rows of one day: `enumerate(day.tasks, start=1)`. */
  function DayRows(day: TaskPlanDay, ctx: RowContext, nextId: Id): seq<TaskRow> {
    TaskRows(day.tasks, day.dayIndex, ctx, nextId, 1)
  }

  function TotalTasks(days: seq<TaskPlanDay>): nat {
    if |days| == 0 then 0 else |days[0].tasks| + TotalTasks(days[1..])
  }

  /** Every row inserted for a plan, day after day; ids are consecutive from `nextId`. */
  function PlanRows(days: seq<TaskPlanDay>, ctx: RowContext, nextId: Id): (r: seq<TaskRow>)
    ensures |r| == TotalTasks(days)
    ensures forall i :: 0 <= i < |r| ==> r[i].planId == ctx.planId && r[i].id == nextId + i
  {
    if |days| == 0 then []
    else
      var first := DayRows(days[0], ctx, nextId);
      var rest := PlanRows(days[1..], ctx, nextId + |first|);
      assert forall i :: |first| <= i < |first| + |rest| ==> (first + rest)[i] == rest[i - |first|];
      first + rest
  }

  function InPlan(planId: Id): TaskRow -> bool {
    (row: TaskRow) => row.planId == planId
  }

  function NotInPlan(planId: Id): TaskRow -> bool {
    (row: TaskRow) => row.planId != planId
  }

  function AtDay(dayIndex: int): TaskRow -> bool {
    (row: TaskRow) => row.dayIndex == dayIndex
  }

  function InPlanDay(planId: Id, dayIndex: int): TaskRow -> bool {
    (row: TaskRow) => row.planId == planId && row.dayIndex == dayIndex
  }

  /** `_replace_plan_tasks`: delete the plan's rows, then insert one row per task. */
  function ReplacePlanTasks(tasks: seq<TaskRow>, ctx: RowContext, days: seq<TaskPlanDay>, firstId: Id): (r: seq<TaskRow>)
    ensures |r| == |Filter(tasks, NotInPlan(ctx.planId))| + TotalTasks(days)
  {
    Filter(tasks, NotInPlan(ctx.planId)) + PlanRows(days, ctx, firstId)
  }

  /** After a replacement the rows of other plans are exactly the old ones, in their old
      order, and the plan's own rows are exactly the generated ones. */
  lemma ReplaceSplits(tasks: seq<TaskRow>, ctx: RowContext, days: seq<TaskPlanDay>, firstId: Id)
    ensures var r := ReplacePlanTasks(tasks, ctx, days, firstId);
      && Filter(r, NotInPlan(ctx.planId)) == Filter(tasks, NotInPlan(ctx.planId))
      && Filter(r, InPlan(ctx.planId)) == PlanRows(days, ctx, firstId)
  {
    var kept := Filter(tasks, NotInPlan(ctx.planId));
    var added := PlanRows(days, ctx, firstId);
    FilterConcat(kept, added, NotInPlan(ctx.planId));
    FilterConcat(kept, added, InPlan(ctx.planId));
    FilterAll(kept, NotInPlan(ctx.planId));
    FilterNone(kept, InPlan(ctx.planId));
    FilterNone(added, NotInPlan(ctx.planId));
    FilterAll(added, InPlan(ctx.planId));
  }

  /** Replacing twice leaves what the second replacement alone would leave. */
  lemma ReplaceTwice(tasks: seq<TaskRow>, ctx1: RowContext, days1: seq<TaskPlanDay>, id1: Id,
                     ctx2: RowContext, days2: seq<TaskPlanDay>, id2: Id)
    requires ctx1.planId == ctx2.planId
    ensures ReplacePlanTasks(ReplacePlanTasks(tasks, ctx1, days1, id1), ctx2, days2, id2)
         == ReplacePlanTasks(tasks, ctx2, days2, id2)
  {
    ReplaceSplits(tasks, ctx1, days1, id1);
  }

  /** The id the first row of day `m` receives when the rows of `days` are numbered from `nextId`. */
  function FirstIdOfDay(days: seq<TaskPlanDay>, m: nat, nextId: Id): Id
    requires m <= |days|
  {
    if m == 0 then nextId else FirstIdOfDay(days[1..], m - 1, nextId + |days[0].tasks|)
  }

  lemma PlanRowsCons(days: seq<TaskPlanDay>, ctx: RowContext, nextId: Id)
    requires |days| > 0
    ensures PlanRows(days, ctx, nextId)
         == DayRows(days[0], ctx, nextId) + PlanRows(days[1..], ctx, nextId + |days[0].tasks|)
  {
  }

  lemma DayRowsAt(day: TaskPlanDay, ctx: RowContext, nextId: Id, d: int)
    ensures Filter(DayRows(day, ctx, nextId), AtDay(d)) == if day.dayIndex == d then DayRows(day, ctx, nextId) else []
  {
    if day.dayIndex == d {
      FilterAll(DayRows(day, ctx, nextId), AtDay(d));
    } else {
      FilterNone(DayRows(day, ctx, nextId), AtDay(d));
    }
  }

  /** The rows generated for day `d` when the days are numbered `base`, `base + 1`, ... */
  function RowsOfDay(days: seq<TaskPlanDay>, ctx: RowContext, nextId: Id, base: int, d: int): seq<TaskRow> {
    if base <= d < base + |days| then DayRows(days[d - base], ctx, FirstIdOfDay(days, d - base, nextId)) else []
  }

  lemma RowsOfDayCons(days: seq<TaskPlanDay>, ctx: RowContext, nextId: Id, base: int, d: int)
    requires |days| > 0
    ensures RowsOfDay(days, ctx, nextId, base, d)
         == (if d == base then DayRows(days[0], ctx, nextId) else [])
            + RowsOfDay(days[1..], ctx, nextId + |days[0].tasks|, base + 1, d)
  {
    if base < d < base + |days| {
      assert days[1..][d - base - 1] == days[d - base];
    }
  }

  /** The rows of day `d` among the rows of days numbered `base`, `base + 1`, ... */
  lemma {:induction false} PlanRowsOfDay(days: seq<TaskPlanDay>, ctx: RowContext, nextId: Id, base: int, d: int)
    requires forall k :: 0 <= k < |days| ==> days[k].dayIndex == base + k
    ensures Filter(PlanRows(days, ctx, nextId), AtDay(d)) == RowsOfDay(days, ctx, nextId, base, d)
  {
    if |days| > 0 {
      var first := DayRows(days[0], ctx, nextId);
      var restId := nextId + |days[0].tasks|;
      var tail := days[1..];
      var rest := PlanRows(tail, ctx, restId);
      assert forall k :: 0 <= k < |tail| ==> tail[k].dayIndex == base + 1 + k by {
        forall k | 0 <= k < |tail| ensures tail[k].dayIndex == base + 1 + k {
          assert tail[k] == days[k + 1];
        }
      }
      PlanRowsOfDay(tail, ctx, restId, base + 1, d);
      PlanRowsCons(days, ctx, nextId);
      FilterConcat(first, rest, AtDay(d));
      DayRowsAt(days[0], ctx, nextId, d);
      RowsOfDayCons(days, ctx, nextId, base, d);
    }
  }

  // ------------------------------------------------------------ reading a day

  function OrderOf(row: TaskRow): int {
    row.orderInDay
  }

  /** `SELECT ... FROM tasks WHERE plan_id = :plan_id AND day_index = :day_index ORDER BY order_in_day ASC`
      (rows with equal order keep their table order). */
  function DayTaskRows(tasks: seq<TaskRow>, planId: Id, dayIndex: int): (r: seq<TaskRow>)
    ensures multiset(r) == multiset(Filter(tasks, InPlanDay(planId, dayIndex)))
    ensures forall x :: x in r <==> x in tasks && x.planId == planId && x.dayIndex == dayIndex
    ensures SortedBy(r, OrderOf)
  {
    var matching := Filter(tasks, InPlanDay(planId, dayIndex));
    var r := SortBy(matching, OrderOf);
    SortByPermutes(matching, OrderOf);
    assert forall x :: x in r <==> x in multiset(matching);
    assert forall x :: x in matching ==> InPlanDay(planId, dayIndex)(x);
    r
  }

  /** The response item for a row: `description or ""`, `estimated_minutes or 0`. */
  function ToPayload(row: TaskRow): (r: DailyTaskPayload)
    ensures r.id == row.id && r.completedAt == row.completedAt
    ensures r.description == (if row.description.Some? then row.description.value else "")
    ensures r.estimatedMinutes == (if row.estimatedMinutes.Some? then row.estimatedMinutes.value else 0)
  {
    DailyTaskPayload(row.id, row.description.GetOr(""), row.estimatedMinutes.GetOr(0), row.completedAt)
  }

  const NegativeDayMessage := "day_index must be >= 0"
  const NoActivePlanMessage := "No active plan found for goal."

  /** `fetch_tasks_for_day`, including the validation of the response model: a row without
      minutes reads as 0, which the response rejects. */
  function FetchTasksForDay(db: Db, goalId: Id, dayIndex: int): (r: Result<TasksForDayResponse, ServiceError>)
    ensures dayIndex < 0 ==> r == Err(TaskPlanValidation(NegativeDayMessage))
    ensures dayIndex >= 0 && LatestPlan(db.plans, goalId).None? ==> r == Err(ActivePlanNotFound(NoActivePlanMessage))
    ensures dayIndex >= 0 && LatestPlan(db.plans, goalId).Some? ==>
      var rows := DayTaskRows(db.tasks, LatestPlan(db.plans, goalId).value.id, dayIndex);
      && (r.Ok? <==> AllHaveMinutes(rows))
      && (r.Ok? ==>
           && r.value.goalId == goalId && r.value.dayIndex == dayIndex
           && r.value.planId == LatestPlan(db.plans, goalId).value.id
           && |r.value.tasks| == |rows|
           && forall i :: 0 <= i < |rows| ==> r.value.tasks[i] == ToPayload(rows[i]))
    ensures r.Ok? ==> ValidTasksForDay(r.value)
  {
    if dayIndex < 0 then Err(TaskPlanValidation(NegativeDayMessage))
    else match LatestPlan(db.plans, goalId)
      case None => Err(ActivePlanNotFound(NoActivePlanMessage))
      case Some(plan) =>
        var rows := DayTaskRows(db.tasks, plan.id, dayIndex);
        var response := TasksForDayResponse(goalId, plan.id, dayIndex, Payloads(rows));
        PayloadsValid(response, rows);
        if ValidTasksForDay(response) then Ok(response) else Err(Unexpected("response validation failed"))
  }

  /** The response items of the rows, in row order. */
  function Payloads(rows: seq<TaskRow>): (r: seq<DailyTaskPayload>)
    ensures |r| == |rows| && forall i :: 0 <= i < |rows| ==> r[i] == ToPayload(rows[i])
  {
    seq(|rows|, i requires 0 <= i < |rows| => ToPayload(rows[i]))
  }

  /** Every row of the day carries at least the minimum number of minutes (a missing value reads as 0). */
  predicate AllHaveMinutes(rows: seq<TaskRow>) {
    forall i :: 0 <= i < |rows| ==> ToPayload(rows[i]).estimatedMinutes >= MinTaskMinutes
  }

  lemma PayloadsValid(response: TasksForDayResponse, rows: seq<TaskRow>)
    requires response.dayIndex >= 0 && response.tasks == Payloads(rows)
    ensures ValidTasksForDay(response) <==> AllHaveMinutes(rows)
  {
  }

  /** A day without rows reads as an empty list, not as an error. */
  lemma FetchEmptyDay(db: Db, goalId: Id, dayIndex: int)
    requires dayIndex >= 0 && LatestPlan(db.plans, goalId).Some?
    requires forall i :: 0 <= i < |db.tasks| ==> !InPlanDay(LatestPlan(db.plans, goalId).value.id, dayIndex)(db.tasks[i])
    ensures FetchTasksForDay(db, goalId, dayIndex) == Ok(TasksForDayResponse(goalId, LatestPlan(db.plans, goalId).value.id, dayIndex, []))
  {
    FilterNone(db.tasks, InPlanDay(LatestPlan(db.plans, goalId).value.id, dayIndex));
  }

  /** Reads are not always valid: one stored row of the day without minutes makes the whole read fail. */
  lemma FetchFailsOnMissingMinutes(db: Db, goalId: Id, dayIndex: int, i: int)
    requires dayIndex >= 0 && LatestPlan(db.plans, goalId).Some?
    requires 0 <= i < |db.tasks|
    requires db.tasks[i].planId == LatestPlan(db.plans, goalId).value.id && db.tasks[i].dayIndex == dayIndex
    requires db.tasks[i].estimatedMinutes.None?
    ensures FetchTasksForDay(db, goalId, dayIndex).Err?
  {
    var rows := DayTaskRows(db.tasks, LatestPlan(db.plans, goalId).value.id, dayIndex);
    assert db.tasks[i] in rows;
    var j :| 0 <= j < |rows| && rows[j] == db.tasks[i];
    assert ToPayload(rows[j]).estimatedMinutes == 0;
  }

  // ------------------------------------------------------------------ prompt

  const OverviewKey := "overview"
  const DailyMinutesKey := "daily_time_commitment_minutes"
  const DurationKey := "estimated_duration_days"
  const StartDateKey := "start_date"

  /** `plan.summary or payload.get("overview") or ""`, then checked as the prompt's string field:
      a truthy overview that is not a string fails validation. */
  function PlanSummaryText(summary: Option<string>, payload: map<string, Json>): (r: Result<string, ServiceError>)
    ensures summary.Some? && |summary.value| > 0 ==> r == Ok(summary.value)
    ensures r.Err? <==>
      && !(summary.Some? && |summary.value| > 0)
      && OverviewKey in payload && Truthy(payload[OverviewKey]) && !payload[OverviewKey].JStr?
    ensures r.Ok? && !(summary.Some? && |summary.value| > 0) ==>
      if OverviewKey in payload && Truthy(payload[OverviewKey]) then r.value == payload[OverviewKey].s else r.value == ""
  {
    if summary.Some? && |summary.value| > 0 then Ok(summary.value)
    else match Get(payload, OverviewKey)
      case Some(v) =>
        if !Truthy(v) then Ok("")
        else if v.JStr? then Ok(v.s)
        else Err(Unexpected("plan_summary is not a string"))
      case None => Ok("")
  }

  /** `payload.get("daily_time_commitment_minutes", 30)`, checked against the prompt's bounds:
      a present key (even null) replaces the default. */
  function PromptDailyMinutes(payload: map<string, Json>): (r: Result<int, ServiceError>)
    ensures r.Ok? ==> MinDailyCommitment <= r.value <= MaxPromptDailyMinutes
    ensures DailyMinutesKey !in payload ==> r == Ok(DefaultPromptDailyMinutes)
    ensures DailyMinutesKey in payload ==>
      (r.Ok? <==> payload[DailyMinutesKey].JInt? && MinDailyCommitment <= payload[DailyMinutesKey].i <= MaxPromptDailyMinutes)
    ensures DailyMinutesKey in payload && r.Ok? ==> r.value == payload[DailyMinutesKey].i
  {
    match Get(payload, DailyMinutesKey)
    case None => Ok(DefaultPromptDailyMinutes)
    case Some(JInt(i)) =>
      if MinDailyCommitment <= i <= MaxPromptDailyMinutes then Ok(i) else Err(Unexpected("daily_time_commitment_minutes out of range"))
    case Some(_) => Err(Unexpected("daily_time_commitment_minutes is not an integer"))
  }

  /** `payload.get("estimated_duration_days")` as the prompt's optional integer. */
  function PromptDuration(payload: map<string, Json>): (r: Result<Option<int>, ServiceError>)
    ensures (DurationKey !in payload || payload[DurationKey] == JNull) ==> r == Ok(None)
    ensures DurationKey in payload && payload[DurationKey].JInt? ==> r == Ok(Some(payload[DurationKey].i))
    ensures r.Err? <==> DurationKey in payload && !payload[DurationKey].JInt? && payload[DurationKey] != JNull
    ensures r.Err? ==> r.error.Unexpected?
  {
    match Get(payload, DurationKey)
    case None => Ok(None)
    case Some(JNull) => Ok(None)
    case Some(JInt(i)) => Ok(Some(i))
    case Some(_) => Err(Unexpected("estimated_duration_days is not an integer"))
  }

  /** The `TaskPlanPrompt` built in `generate_task_plan_for_goal`; the goal category is
      never selected by the goal query, so it stays unset. */
  function BuildTaskPrompt(goal: Goal, plan: Plan, schedule: Schedule, language: Option<string>): (r: Result<TaskPlanPrompt, ServiceError>)
    ensures r.Ok? ==> ValidPrompt(r.value)
    ensures r.Ok? ==>
      && r.value.goalId == goal.id && r.value.planId == plan.id
      && r.value.startDate == schedule.startDate && r.value.targetDate == schedule.targetDate
      && r.value.goalDescription == goal.description && r.value.userLanguage == language
      && r.value.goalTitle == (if goal.title.Some? && |goal.title.value| > 0 then goal.title.value else "Untitled goal")
    ensures r.Ok? <==>
      && PlanSummaryText(plan.summary, PayloadDict(plan.planJson)).Ok?
      && PromptDuration(PayloadDict(plan.planJson)).Ok?
      && PromptDailyMinutes(PayloadDict(plan.planJson)).Ok?
  {
    var payload := PayloadDict(plan.planJson);
    var summary :- PlanSummaryText(plan.summary, payload);
    var duration :- PromptDuration(payload);
    var minutes :- PromptDailyMinutes(payload);
    var title := if goal.title.Some? && |goal.title.value| > 0 then goal.title.value else "Untitled goal";
    Ok(TaskPlanPrompt(goal.id, plan.id, title, goal.description, schedule.startDate, schedule.targetDate,
                      summary, duration, minutes, language))
  }

  // ------------------------------------------------------------- stored plan

  function DumpTask(t: TaskPlanTask): Json {
    JObj(map["description" := JStr(t.description), "estimated_minutes" := JInt(t.estimatedMinutes)])
  }

  function DumpDay(d: TaskPlanDay): Json {
    JObj(map["day_index" := JInt(d.dayIndex), "label" := JStr(d.dayLabel), "focus" := JStr(d.focus),
             "tasks" := JArr(seq(|d.tasks|, i requires 0 <= i < |d.tasks| => DumpTask(d.tasks[i])))])
  }

  /** `task_plan.model_dump(mode="json")`, dates rendered by the ISO formatter. */
  function DumpTaskPlan(p: TaskPlanResult, formatIsoDate: Date -> string): Json {
    JObj(map[
      "goal_id" := JStr(p.goalId),
      "plan_id" := JStr(p.planId),
      "version" := JInt(p.version),
      "summary" := JStr(p.summary),
      "time_horizon_days" := JInt(p.timeHorizonDays),
      DailyMinutesKey := JInt(p.dailyTimeCommitmentMinutes),
      StartDateKey := JStr(formatIsoDate(p.startDate)),
      DaysKey := JArr(seq(|p.days|, i requires 0 <= i < |p.days| => DumpDay(p.days[i])))])
  }

  /** Reading a stored task plan back as a plan payload: the horizon, start date and daily budget
      come back as they were written, and there is no overview, phase list or duration. */
  lemma DumpReadsBack(p: TaskPlanResult, parseIsoDate: string -> Option<Date>, formatIsoDate: Date -> string)
    requires p.timeHorizonDays >= 1
    requires parseIsoDate(formatIsoDate(p.startDate)) == Some(p.startDate)
    ensures var payload := PayloadDict(DumpTaskPlan(p, formatIsoDate));
      && HorizonFromPayload(payload) == Some(p.timeHorizonDays)
      && JsonDate(Get(payload, StartDateKey), parseIsoDate) == Some(p.startDate)
      && Get(payload, DailyMinutesKey) == Some(JInt(p.dailyTimeCommitmentMinutes))
      && OverviewKey !in payload && "phases" !in payload && DurationKey !in payload
  {
  }

  /** `UPDATE ai_plans SET plan_json = ..., target_date = ... WHERE id = :plan_id`. */
  function PersistPlanJson(plans: seq<Plan>, planId: Id, payload: Json, target: Date): (r: seq<Plan>)
    ensures SameRanking(plans, r)
    ensures forall i :: 0 <= i < |r| && plans[i].id != planId ==> r[i] == plans[i]
    ensures forall i :: 0 <= i < |r| && plans[i].id == planId ==>
      r[i].planJson == payload && r[i].targetDate == Some(target) && r[i].summary == plans[i].summary
  {
    if |plans| == 0 then []
    else
      var head := if plans[0].id == planId then plans[0].(planJson := payload, targetDate := Some(target)) else plans[0];
      var rest := PersistPlanJson(plans[1..], planId, payload, target);
      assert forall i :: 1 <= i <= |rest| ==> ([head] + rest)[i] == rest[i - 1] && plans[i] == plans[1..][i - 1];
      [head] + rest
  }

  /** After the update, the plan the goal's queries pick is still the same row, now holding the payload. */
  lemma PersistKeepsLatest(plans: seq<Plan>, goalId: Id, payload: Json, target: Date)
    requires LatestPlan(plans, goalId).Some?
    ensures var id := LatestPlan(plans, goalId).value.id;
      var after := LatestPlan(PersistPlanJson(plans, id, payload, target), goalId);
      after.Some? && after.value.id == id && after.value.planJson == payload
  {
    var id := LatestPlan(plans, goalId).value.id;
    var updated := PersistPlanJson(plans, id, payload, target);
    LatestPlanSameRanking(plans, updated, goalId);
    var top := LatestPlan(updated, goalId).value;
    var i :| 0 <= i < |updated| && updated[i] == top;
    assert plans[i].id == id;
  }

  // ---------------------------------------------------------------- generation

  datatype Generated = Generated(plan: TaskPlanResult, db: Db)

  const GoalNotFoundMessage := "Goal not found."
  const NoAiPlanMessage := "Goal has no active AI plan."

  /** The LLM part of a generation: send the prompt, then extract, repair and validate the reply. */
  function RequestTaskPlan(prompt: TaskPlanPrompt, env: Env): (r: Result<TaskPlanResult, ServiceError>)
    ensures r.Ok? ==> ValidResult(r.value)
    ensures env.taskTransport(prompt).Err? ==> r == Err(Llm(env.taskTransport(prompt).error))
    ensures r.Err? ==> r.error.Llm? || r.error.Unexpected?
    ensures env.taskTransport(prompt).Ok? ==>
      var parsed := ParseTaskPlanReply(env.taskTransport(prompt).value, env.parseJson, env.buildTaskPlan);
      (parsed.Ok? ==> r == Ok(parsed.value)) && (parsed.Err? ==> r == Err(FromGateway(parsed.error)))
  {
    match env.taskTransport(prompt)
    case Err(e) => Err(Llm(e))
    case Ok(content) =>
      match ParseTaskPlanReply(content, env.parseJson, env.buildTaskPlan)
      case Ok(result) => Ok(result)
      case Err(g) => Err(FromGateway(g))
  }

  /** The date range of a generation for this goal and plan. */
  function ScheduleFor(goal: Goal, plan: Plan, override: Option<Date>, env: Env): Schedule {
    var payload := PayloadDict(plan.planJson);
    ResolveSchedule(override, goal.startDate, JsonDate(Get(payload, StartDateKey), env.parseIsoDate),
                    plan.targetDate, goal.targetDate, HorizonFromPayload(payload), env.today).value
  }

  /**
   * `generate_task_plan_for_goal`: load the goal and its top plan, resolve the dates, build the
   * prompt, ask the planner, normalise its days to the expected count, store the plan payload
   * and its target date, and replace the plan's task rows.
   */
  function GenerateTaskPlanForGoal(db: Db, goalId: Id, override: Option<Date>, env: Env): (r: Result<Generated, ServiceError>)
    ensures FindGoal(db.goals, goalId).None? ==> r == Err(ActivePlanNotFound(GoalNotFoundMessage))
    ensures FindGoal(db.goals, goalId).Some? && LatestPlan(db.plans, goalId).None? ==> r == Err(ActivePlanNotFound(NoAiPlanMessage))
    ensures r.Err? ==> r.error.ActivePlanNotFound? || r.error.Llm? || r.error.Unexpected?
    ensures r.Ok? ==>
      && ValidResult(r.value.plan) && Contiguous(r.value.plan.days)
      && r.value.plan.timeHorizonDays == |r.value.plan.days|
      && |r.value.plan.days| <= ExpectedDays(ScheduleFor(FindGoal(db.goals, goalId).value, LatestPlan(db.plans, goalId).value, override, env))
    ensures r.Ok? ==>
      && r.value.db.goals == db.goals && r.value.db.profiles == db.profiles
      && SameRanking(db.plans, r.value.db.plans)
    ensures FindGoal(db.goals, goalId).Some? && LatestPlan(db.plans, goalId).Some? ==>
      var goal, plan := FindGoal(db.goals, goalId).value, LatestPlan(db.plans, goalId).value;
      var schedule := ScheduleFor(goal, plan, override, env);
      var prompt := BuildTaskPrompt(goal, plan, schedule, UserLanguage(db.profiles, goal.userId));
      && (prompt.Err? ==> r == Err(prompt.error))
      && (prompt.Ok? && RequestTaskPlan(prompt.value, env).Err? ==> r == Err(RequestTaskPlan(prompt.value, env).error))
      && (prompt.Ok? && RequestTaskPlan(prompt.value, env).Ok? ==>
            var normalized := NormalizeTaskPlan(RequestTaskPlan(prompt.value, env).value, ExpectedDays(schedule));
            r == Ok(Generated(normalized, StoreTaskPlan(db, goalId, plan.id, normalized, env))))
  {
    match FindGoal(db.goals, goalId)
    case None => Err(ActivePlanNotFound(GoalNotFoundMessage))
    case Some(goal) =>
      match LatestPlan(db.plans, goalId)
      case None => Err(ActivePlanNotFound(NoAiPlanMessage))
      case Some(plan) =>
        var schedule := ScheduleFor(goal, plan, override, env);
        var prompt :- BuildTaskPrompt(goal, plan, schedule, UserLanguage(db.profiles, goal.userId));
        var expected := ExpectedDays(schedule);
        var raw :- RequestTaskPlan(prompt, env);
        NormalizePreservesValidity(raw, expected);
        var normalized := NormalizeTaskPlan(raw, expected);
        Ok(Generated(normalized, StoreTaskPlan(db, goal.id, plan.id, normalized, env)))
  }

  /** The writes of a generation: the plan's payload and target date, then its task rows. */
  function StoreTaskPlan(db: Db, goalId: Id, planId: Id, normalized: TaskPlanResult, env: Env): (r: Db)
    ensures r.goals == db.goals && r.profiles == db.profiles && SameRanking(db.plans, r.plans)
  {
    var plans := PersistPlanJson(db.plans, planId, DumpTaskPlan(normalized, env.formatIsoDate), TaskPlanTargetDate(normalized));
    var ctx := RowContext(planId, goalId, normalized.startDate, SupportsExtendedSchema(None, env.taskColumns));
    db.(plans := plans, tasks := ReplacePlanTasks(db.tasks, ctx, normalized.days, env.firstTaskId))
  }

  /** After a generation the goal's top plan is the same row as before, now holding the dump
      of the returned plan. */
  lemma GenerationStoresPlan(db: Db, goalId: Id, override: Option<Date>, env: Env)
    requires GenerateTaskPlanForGoal(db, goalId, override, env).Ok?
    ensures var g := GenerateTaskPlanForGoal(db, goalId, override, env).value;
      var after := LatestPlan(g.db.plans, goalId);
      && after.Some? && after.value.id == LatestPlan(db.plans, goalId).value.id
      && after.value.planJson == DumpTaskPlan(g.plan, env.formatIsoDate)
  {
    var g := GenerateTaskPlanForGoal(db, goalId, override, env).value;
    GeneratedTables(db, goalId, override, env);
    PersistKeepsLatest(db.plans, goalId, DumpTaskPlan(g.plan, env.formatIsoDate), TaskPlanTargetDate(g.plan));
  }

  /** The tables a successful generation writes: the top plan's payload and target date, and the plan's task rows. */
  lemma GeneratedTables(db: Db, goalId: Id, override: Option<Date>, env: Env)
    requires GenerateTaskPlanForGoal(db, goalId, override, env).Ok?
    ensures var g := GenerateTaskPlanForGoal(db, goalId, override, env).value;
      g.db == StoreTaskPlan(db, goalId, LatestPlan(db.plans, goalId).value.id, g.plan, env)
  {
    var goal := FindGoal(db.goals, goalId).value;
    var plan := LatestPlan(db.plans, goalId).value;
    var schedule := ScheduleFor(goal, plan, override, env);
    var prompt := BuildTaskPrompt(goal, plan, schedule, UserLanguage(db.profiles, goal.userId));
    assert prompt.Ok?;
    var raw := RequestTaskPlan(prompt.value, env);
    assert raw.Ok?;
    var normalized := NormalizeTaskPlan(raw.value, ExpectedDays(schedule));
    assert GenerateTaskPlanForGoal(db, goalId, override, env).value
        == Generated(normalized, StoreTaskPlan(db, goal.id, plan.id, normalized, env));
  }

  lemma DayRowsSorted(day: TaskPlanDay, ctx: RowContext, nextId: Id)
    ensures SortedBy(DayRows(day, ctx, nextId), OrderOf)
  {
    var rows := DayRows(day, ctx, nextId);
    forall i, j | 0 <= i < j < |rows| ensures OrderOf(rows[i]) <= OrderOf(rows[j]) {
      assert RowOf(rows[i], day.tasks[i], day.dayIndex, ctx, nextId + i, 1 + i);
      assert RowOf(rows[j], day.tasks[j], day.dayIndex, ctx, nextId + j, 1 + j);
    }
  }

  /** Once a plan's rows are replaced by the rows of contiguously numbered days, the day query
      returns exactly the rows generated for that day, in task order. */
  lemma ReplacedDayRows(tasks: seq<TaskRow>, ctx: RowContext, days: seq<TaskPlanDay>, firstId: Id, d: int)
    requires Contiguous(days)
    ensures DayTaskRows(ReplacePlanTasks(tasks, ctx, days, firstId), ctx.planId, d)
         == if 0 <= d < |days| then DayRows(days[d], ctx, FirstIdOfDay(days, d, firstId)) else []
  {
    var pid := ctx.planId;
    var kept := Filter(tasks, NotInPlan(pid));
    var added := PlanRows(days, ctx, firstId);
    var matching := Filter(ReplacePlanTasks(tasks, ctx, days, firstId), InPlanDay(pid, d));
    var expected := if 0 <= d < |days| then DayRows(days[d], ctx, FirstIdOfDay(days, d, firstId)) else [];
    assert matching == Filter(kept, InPlanDay(pid, d)) + Filter(added, InPlanDay(pid, d)) by {
      FilterConcat(kept, added, InPlanDay(pid, d));
    }
    assert Filter(kept, InPlanDay(pid, d)) == [] by {
      FilterNone(kept, InPlanDay(pid, d));
    }
    assert Filter(added, InPlanDay(pid, d)) == expected by {
      FilterAgree(added, InPlanDay(pid, d), AtDay(d));
      PlanRowsOfDay(days, ctx, firstId, 0, d);
    }
    assert matching == expected;
    assert SortBy(matching, OrderOf) == expected by {
      if 0 <= d < |days| {
        DayRowsSorted(days[d], ctx, FirstIdOfDay(days, d, firstId));
      }
      SortBySorted(matching, OrderOf);
    }
  }

  /** The day read over a table whose top plan's rows were just replaced by valid, contiguous days. */
  lemma FetchReplaced(db: Db, goalId: Id, tasks: seq<TaskRow>, ctx: RowContext, days: seq<TaskPlanDay>, firstId: Id, d: int)
    requires db.tasks == ReplacePlanTasks(tasks, ctx, days, firstId)
    requires LatestPlan(db.plans, goalId).Some? && LatestPlan(db.plans, goalId).value.id == ctx.planId
    requires Contiguous(days) && forall k :: 0 <= k < |days| ==> ValidDay(days[k])
    requires d >= 0
    ensures var resp := FetchTasksForDay(db, goalId, d);
      && resp.Ok?
      && resp.value.planId == ctx.planId
      && (d < |days| ==>
           && |resp.value.tasks| == |days[d].tasks|
           && forall j :: 0 <= j < |resp.value.tasks| ==>
                && resp.value.tasks[j].description == days[d].tasks[j].description
                && resp.value.tasks[j].estimatedMinutes == days[d].tasks[j].estimatedMinutes
                && resp.value.tasks[j].completedAt.None?)
      && (d >= |days| ==> resp.value.tasks == [])
  {
    ReplacedDayRows(tasks, ctx, days, firstId, d);
    if d < |days| {
      FetchDayRows(db, goalId, d, days[d], ctx, FirstIdOfDay(days, d, firstId));
    } else {
      FetchNoRows(db, goalId, d);
    }
  }

  /** The day read when the day query returns the rows generated for one valid day. */
  lemma FetchDayRows(db: Db, goalId: Id, d: int, day: TaskPlanDay, ctx: RowContext, id: Id)
    requires d >= 0 && LatestPlan(db.plans, goalId).Some?
    requires DayTaskRows(db.tasks, LatestPlan(db.plans, goalId).value.id, d) == DayRows(day, ctx, id)
    requires ValidDay(day)
    ensures var resp := FetchTasksForDay(db, goalId, d);
      && resp.Ok?
      && resp.value.planId == LatestPlan(db.plans, goalId).value.id
      && |resp.value.tasks| == |day.tasks|
      && forall j :: 0 <= j < |resp.value.tasks| ==>
           && resp.value.tasks[j].description == day.tasks[j].description
           && resp.value.tasks[j].estimatedMinutes == day.tasks[j].estimatedMinutes
           && resp.value.tasks[j].completedAt.None?
  {
    DayRowsPayloads(day, ctx, id);
  }

  /** The day read when the day query returns no rows. */
  lemma FetchNoRows(db: Db, goalId: Id, d: int)
    requires d >= 0 && LatestPlan(db.plans, goalId).Some?
    requires DayTaskRows(db.tasks, LatestPlan(db.plans, goalId).value.id, d) == []
    ensures var resp := FetchTasksForDay(db, goalId, d);
      && resp.Ok? && resp.value.planId == LatestPlan(db.plans, goalId).value.id && resp.value.tasks == []
  {
  }

  /** The response items of a valid day's rows carry the day's tasks and pass validation. */
  lemma DayRowsPayloads(day: TaskPlanDay, ctx: RowContext, id: Id)
    requires ValidDay(day)
    ensures var rows := DayRows(day, ctx, id);
      && |rows| == |day.tasks|
      && forall j :: 0 <= j < |rows| ==>
           && ToPayload(rows[j]).estimatedMinutes == day.tasks[j].estimatedMinutes >= MinTaskMinutes
           && ToPayload(rows[j]).description == day.tasks[j].description
           && ToPayload(rows[j]).completedAt.None?
  {
    var rows := DayRows(day, ctx, id);
    forall j | 0 <= j < |rows|
      ensures ToPayload(rows[j]).estimatedMinutes == day.tasks[j].estimatedMinutes >= MinTaskMinutes
      ensures ToPayload(rows[j]).description == day.tasks[j].description
      ensures ToPayload(rows[j]).completedAt.None?
    {
      assert RowOf(rows[j], day.tasks[j], day.dayIndex, ctx, id + j, 1 + j);
      assert ValidTask(day.tasks[j]);
    }
  }

  /**
   * What generation writes is what the day endpoint reads: every day of the returned plan reads
   * back as its tasks, in order, with their descriptions and durations; later days read as empty.
   */
  lemma GeneratedTasksReadBack(db: Db, goalId: Id, override: Option<Date>, env: Env, d: int)
    requires GenerateTaskPlanForGoal(db, goalId, override, env).Ok?
    requires d >= 0
    ensures var g := GenerateTaskPlanForGoal(db, goalId, override, env).value;
      var resp := FetchTasksForDay(g.db, goalId, d);
      && resp.Ok?
      && resp.value.planId == LatestPlan(db.plans, goalId).value.id
      && (d < |g.plan.days| ==>
           && |resp.value.tasks| == |g.plan.days[d].tasks|
           && forall j :: 0 <= j < |resp.value.tasks| ==>
                && resp.value.tasks[j].description == g.plan.days[d].tasks[j].description
                && resp.value.tasks[j].estimatedMinutes == g.plan.days[d].tasks[j].estimatedMinutes
                && resp.value.tasks[j].completedAt.None?)
      && (d >= |g.plan.days| ==> resp.value.tasks == [])
  {
    var g := GenerateTaskPlanForGoal(db, goalId, override, env).value;
    var plan := LatestPlan(db.plans, goalId).value;
    var ctx := RowContext(plan.id, goalId, g.plan.startDate, SupportsExtendedSchema(None, env.taskColumns));
    GeneratedTables(db, goalId, override, env);
    GenerationStoresPlan(db, goalId, override, env);
    FetchReplaced(g.db, goalId, db.tasks, ctx, g.plan.days, env.firstTaskId, d);
  }
}

=== FILE: schema.dfy ===
/**
 * The typed records exchanged by the services (backend/app/schemas) and the
 * field constraints their validating constructors enforce, as predicates.
 * Calendar dates are day numbers: `Date + n` is the date `n` days later.
 */
module Schema {
  import opened Wrappers

  type Date = int

  /** Database identifiers (uuids) are opaque. */
  type Id = nat

  const MinTaskMinutes := 5
  const MaxTaskMinutes := 60
  const MinTasksPerDay := 1
  const MaxTasksPerDay := 3
  const MinDailyCommitment := 5
  const DefaultPromptDailyMinutes := 30
  const MaxPromptDailyMinutes := 300

  datatype TaskPlanTask = TaskPlanTask(description: string, estimatedMinutes: int)

  datatype TaskPlanDay = TaskPlanDay(dayIndex: int, dayLabel: string, focus: string, tasks: seq<TaskPlanTask>)

  /** The day-by-day plan; `goalId`, `planId` and `summary` are whatever text the planner echoed. */
  datatype TaskPlanResult = TaskPlanResult(
    goalId: string,
    planId: string,
    version: int,
    summary: string,
    timeHorizonDays: int,
    dailyTimeCommitmentMinutes: int,
    startDate: Date,
    days: seq<TaskPlanDay>)

  /** What the task planner is asked; the goal category is never set by the caller. */
  datatype TaskPlanPrompt = TaskPlanPrompt(
    goalId: Id,
    planId: Id,
    goalTitle: string,
    goalDescription: Option<string>,
    startDate: Date,
    targetDate: Date,
    planSummary: string,
    estimatedDurationDays: Option<int>,
    dailyTimeCommitmentMinutes: int,
    userLanguage: Option<string>)

  datatype DailyTaskPayload = DailyTaskPayload(id: Id, description: string, estimatedMinutes: int, completedAt: Option<int>)

  datatype TasksForDayResponse = TasksForDayResponse(goalId: Id, planId: Id, dayIndex: int, tasks: seq<DailyTaskPayload>)

  datatype PlanPhase = PlanPhase(name: string, focus: string, daysRange: Option<string>)

  /** The summary served to clients (schemas/plan_summary.py); it has no field constraints. */
  datatype PlanSummary = PlanSummary(goalId: Id, overview: string, phases: seq<PlanPhase>, estimatedDurationDays: Option<int>)

  /** The summary the LLM returns before it is bound to a goal (declared in services/llm_client.py). */
  datatype PlanSummaryResult = PlanSummaryResult(overview: string, phases: seq<PlanPhase>, estimatedDurationDays: Option<int>)

  predicate ValidTask(t: TaskPlanTask) {
    |t.description| >= 1 && MinTaskMinutes <= t.estimatedMinutes <= MaxTaskMinutes
  }

  predicate ValidDay(d: TaskPlanDay) {
    && d.dayIndex >= 0
    && |d.dayLabel| >= 1
    && |d.focus| >= 1
    && MinTasksPerDay <= |d.tasks| <= MaxTasksPerDay
    && forall i :: 0 <= i < |d.tasks| ==> ValidTask(d.tasks[i])
  }

  /** The constraints of TaskPlanResult; day indices need not be contiguous or distinct. */
  predicate ValidResult(r: TaskPlanResult) {
    && r.version >= 1
    && r.timeHorizonDays >= 1
    && r.dailyTimeCommitmentMinutes >= MinDailyCommitment
    && |r.days| >= 1
    && forall i :: 0 <= i < |r.days| ==> ValidDay(r.days[i])
  }

  /** Day `k` of the sequence has index `k`: indices are 0..N-1 with no gaps or duplicates. */
  predicate Contiguous(days: seq<TaskPlanDay>) {
    forall k :: 0 <= k < |days| ==> days[k].dayIndex == k
  }

  predicate ValidPrompt(p: TaskPlanPrompt) {
    MinDailyCommitment <= p.dailyTimeCommitmentMinutes <= MaxPromptDailyMinutes
  }

  predicate ValidDailyTask(t: DailyTaskPayload) {
    t.estimatedMinutes >= MinTaskMinutes
  }

  predicate ValidTasksForDay(r: TasksForDayResponse) {
    r.dayIndex >= 0 && forall i :: 0 <= i < |r.tasks| ==> ValidDailyTask(r.tasks[i])
  }

  /** Validation alone does not make a plan's day indices contiguous. */
  lemma ValidResultNeedNotBeContiguous()
    ensures exists r :: ValidResult(r) && !Contiguous(r.days)
  {
    var day := TaskPlanDay(3, "Day 4", "warm up", [TaskPlanTask("stretch", 10)]);
    var r := TaskPlanResult("g", "p", 1, "", 1, 30, 0, [day]);
    assert ValidDay(r.days[0]);
    assert ValidResult(r) && r.days[0].dayIndex != 0;
  }
}

=== FILE: seqs.dfy ===
/**
 * Sequence helpers: filtering (the WHERE of a query over an abstract table)
 * and a stable sort by an integer key (Python's `sorted(key=...)`, and the
 * ORDER BY of a query, for which a stable order is one admissible choice).
 */
module Seqs {

  /** The elements of `s` satisfying `p`, in their original order. */
  function Filter<T>(s: seq<T>, p: T -> bool): (r: seq<T>)
    ensures |r| <= |s|
    ensures forall i :: 0 <= i < |r| ==> p(r[i])
    ensures forall x :: x in r ==> x in s
    ensures forall i :: 0 <= i < |s| && p(s[i]) ==> s[i] in r
  {
    if |s| == 0 then [] else (if p(s[0]) then [s[0]] else []) + Filter(s[1..], p)
  }

  lemma {:induction false} FilterConcat<T>(a: seq<T>, b: seq<T>, p: T -> bool)
    ensures Filter(a + b, p) == Filter(a, p) + Filter(b, p)
  {
    if |a| > 0 {
      assert (a + b)[1..] == a[1..] + b;
      FilterConcat(a[1..], b, p);
    } else {
      assert a + b == b;
    }
  }

  lemma {:induction false} FilterAll<T>(s: seq<T>, p: T -> bool)
    requires forall i :: 0 <= i < |s| ==> p(s[i])
    ensures Filter(s, p) == s
  {
    if |s| > 0 {
      FilterAll(s[1..], p);
    }
  }

  lemma {:induction false} FilterNone<T>(s: seq<T>, p: T -> bool)
    requires forall i :: 0 <= i < |s| ==> !p(s[i])
    ensures Filter(s, p) == []
  {
    if |s| > 0 {
      FilterNone(s[1..], p);
    }
  }

  /** Two tests that agree on every element select the same elements. */
  lemma {:induction false} FilterAgree<T>(s: seq<T>, p: T -> bool, q: T -> bool)
    requires forall i :: 0 <= i < |s| ==> p(s[i]) == q(s[i])
    ensures Filter(s, p) == Filter(s, q)
  {
    if |s| > 0 {
      FilterAgree(s[1..], p, q);
    }
  }

  /** Filtering twice keeps what satisfies both tests. */
  lemma {:induction false} FilterFilter<T>(s: seq<T>, p: T -> bool, q: T -> bool, pq: T -> bool)
    requires forall x :: pq(x) == (p(x) && q(x))
    ensures Filter(Filter(s, p), q) == Filter(s, pq)
  {
    if |s| > 0 {
      FilterFilter(s[1..], p, q, pq);
      var head := if p(s[0]) then [s[0]] else [];
      FilterConcat(head, Filter(s[1..], p), q);
    }
  }

  ghost predicate SortedBy<T>(s: seq<T>, key: T -> int) {
    forall i, j :: 0 <= i < j < |s| ==> key(s[i]) <= key(s[j])
  }

  /** Places `x` before the first element whose key is not smaller, so it precedes its equals. */
  function Insert<T>(x: T, s: seq<T>, key: T -> int): (r: seq<T>)
    ensures |r| == |s| + 1
  {
    if |s| == 0 then [x]
    else if key(x) <= key(s[0]) then [x] + s
    else
      assert s == [s[0]] + s[1..];
      [s[0]] + Insert(x, s[1..], key)
  }

  lemma {:induction false} InsertMultiset<T>(x: T, s: seq<T>, key: T -> int)
    ensures multiset(Insert(x, s, key)) == multiset(s) + multiset{x}
  {
    if |s| > 0 && key(x) > key(s[0]) {
      InsertMultiset(x, s[1..], key);
      assert s == [s[0]] + s[1..];
    }
  }

  /** Inserting keeps a lower bound every element and the new one respect. */
  lemma {:induction false} InsertBounded<T>(x: T, s: seq<T>, key: T -> int, b: int)
    requires b <= key(x) && forall i :: 0 <= i < |s| ==> b <= key(s[i])
    ensures forall i :: 0 <= i < |Insert(x, s, key)| ==> b <= key(Insert(x, s, key)[i])
  {
    if |s| > 0 && key(x) > key(s[0]) {
      var rest := Insert(x, s[1..], key);
      InsertBounded(x, s[1..], key, b);
      assert Insert(x, s, key) == [s[0]] + rest;
    }
  }

  lemma {:induction false} InsertSorted<T>(x: T, s: seq<T>, key: T -> int)
    requires SortedBy(s, key)
    ensures SortedBy(Insert(x, s, key), key)
  {
    if |s| > 0 && key(x) <= key(s[0]) {
      var r := [x] + s;
      assert Insert(x, s, key) == r;
      forall i, j | 0 <= i < j < |r|
        ensures key(r[i]) <= key(r[j])
      {
        assert r[j] == s[j - 1];
        if i > 0 {
          assert r[i] == s[i - 1];
        } else {
          assert key(s[0]) <= key(s[j - 1]);
        }
      }
    } else if |s| > 0 {
      var rest := Insert(x, s[1..], key);
      InsertSorted(x, s[1..], key);
      InsertBounded(x, s[1..], key, key(s[0]));
      var r := [s[0]] + rest;
      assert Insert(x, s, key) == r;
      forall i, j | 0 <= i < j < |r|
        ensures key(r[i]) <= key(r[j])
      {
        assert r[j] == rest[j - 1];
        if i > 0 {
          assert r[i] == rest[i - 1];
        }
      }
    }
  }

  /** Stable insertion sort by `key`. */
  function SortBy<T>(s: seq<T>, key: T -> int): (r: seq<T>)
    ensures |r| == |s|
    ensures SortedBy(r, key)
  {
    if |s| == 0 then []
    else
      InsertSorted(s[0], SortBy(s[1..], key), key);
      Insert(s[0], SortBy(s[1..], key), key)
  }

  /** The sort is a permutation. */
  lemma {:induction false} SortByPermutes<T>(s: seq<T>, key: T -> int)
    ensures multiset(SortBy(s, key)) == multiset(s)
  {
    if |s| > 0 {
      SortByPermutes(s[1..], key);
      InsertMultiset(s[0], SortBy(s[1..], key), key);
      assert s == [s[0]] + s[1..];
    }
  }

  lemma SortByCons<T>(s: seq<T>, key: T -> int)
    requires |s| > 0
    ensures SortBy(s, key) == Insert(s[0], SortBy(s[1..], key), key)
  {
  }

  lemma InsertStep<T>(x: T, s: seq<T>, key: T -> int)
    requires |s| > 0
    ensures key(x) <= key(s[0]) ==> Insert(x, s, key) == [x] + s
    ensures key(x) > key(s[0]) ==> Insert(x, s, key) == [s[0]] + Insert(x, s[1..], key)
  {
  }

  /** The elements carrying key `k`, in order: the order a stable sort must not disturb. */
  function WithKey<T>(s: seq<T>, key: T -> int, k: int): seq<T> {
    if |s| == 0 then [] else (if key(s[0]) == k then [s[0]] else []) + WithKey(s[1..], key, k)
  }

  lemma WithKeyCons<T>(x: T, s: seq<T>, key: T -> int, k: int)
    ensures WithKey([x] + s, key, k) == (if key(x) == k then [x] else []) + WithKey(s, key, k)
  {
    assert ([x] + s)[1..] == s;
  }

  lemma {:induction false} InsertWithKey<T>(x: T, s: seq<T>, key: T -> int, k: int)
    ensures WithKey(Insert(x, s, key), key, k) == (if key(x) == k then [x] else []) + WithKey(s, key, k)
  {
    if |s| > 0 && key(x) > key(s[0]) {
      InsertWithKey(x, s[1..], key, k);
      InsertWithKeyPast(x, s, key, k);
    } else {
      InsertFront(x, s, key);
      WithKeyCons(x, s, key, k);
    }
  }

  lemma InsertFront<T>(x: T, s: seq<T>, key: T -> int)
    requires |s| == 0 || key(x) <= key(s[0])
    ensures Insert(x, s, key) == [x] + s
  {
  }

  /** The step of `InsertWithKey` where `x` goes past the first element. */
  lemma {:induction false} InsertWithKeyPast<T>(x: T, s: seq<T>, key: T -> int, k: int)
    requires |s| > 0 && key(x) > key(s[0])
    requires WithKey(Insert(x, s[1..], key), key, k) == (if key(x) == k then [x] else []) + WithKey(s[1..], key, k)
    ensures WithKey(Insert(x, s, key), key, k) == (if key(x) == k then [x] else []) + WithKey(s, key, k)
  {
    var hx := if key(x) == k then [x] else [];
    var h0 := if key(s[0]) == k then [s[0]] else [];
    var rest := Insert(x, s[1..], key);
    var w1 := WithKey(s[1..], key, k);
    InsertStep(x, s, key);
    WithKeyCons(s[0], rest, key, k);
    assert WithKey(s, key, k) == h0 + w1;
    SwapEmpty(h0, hx, w1);
  }

  lemma SwapEmpty<T>(a: seq<T>, b: seq<T>, w: seq<T>)
    requires a == [] || b == []
    ensures a + (b + w) == b + (a + w)
  {
    if a == [] {
      assert a + (b + w) == b + w == b + (a + w);
    } else {
      assert a + (b + w) == a + w == b + (a + w);
    }
  }

  /** Elements with equal keys keep their relative order: the sort is stable. */
  lemma {:induction false} SortByStable<T>(s: seq<T>, key: T -> int, k: int)
    ensures WithKey(SortBy(s, key), key, k) == WithKey(s, key, k)
  {
    if |s| > 0 {
      SortByStable(s[1..], key, k);
      InsertWithKey(s[0], SortBy(s[1..], key), key, k);
    }
  }

  /** Sorting what is already in key order changes nothing. */
  lemma {:induction false} SortBySorted<T>(s: seq<T>, key: T -> int)
    requires SortedBy(s, key)
    ensures SortBy(s, key) == s
  {
    if |s| > 0 {
      SortBySorted(s[1..], key);
      assert SortBy(s[1..], key) == s[1..];
    }
  }
}

=== FILE: store.dfy ===
/**
 * The persisted state both services read and write (the goals, ai_plans,
 * tasks and profiles tables) as immutable sequences of rows, the queries they
 * share, the errors they raise, and the environment a request runs in.
 */
module Store {
  import opened Wrappers
  import opened Text
  import opened Json
  import opened Schema
  import opened LlmClient

  datatype Goal = Goal(
    id: Id,
    userId: Option<Id>,
    title: Option<string>,
    description: Option<string>,
    targetDate: Option<Date>,
    startDate: Option<Date>,
    currentPlanId: Option<Id>)

  /** An ai_plans row; `planJson` is the decoded jsonb column. */
  datatype Plan = Plan(
    id: Id,
    goalId: Id,
    version: int,
    modelName: string,
    planJson: Json,
    summary: Option<string>,
    targetDate: Option<Date>,
    isActive: bool,
    createdAt: int)

  /** A tasks row; the optional columns exist only in the extended schema (None = NULL). */
  datatype TaskRow = TaskRow(
    id: Id,
    goalId: Option<Id>,
    planId: Id,
    dayIndex: int,
    orderInDay: int,
    description: Option<string>,
    estimatedMinutes: Option<int>,
    plannedDate: Option<Date>,
    taskType: Option<string>,
    status: Option<string>,
    completedAt: Option<int>)

  datatype Profile = Profile(id: Id, age: Option<int>, languageCode: Option<string>)

  datatype Db = Db(goals: seq<Goal>, plans: seq<Plan>, tasks: seq<TaskRow>, profiles: seq<Profile>)

  /** The exceptions the services raise; `Unexpected` is any other Python exception. */
  datatype ServiceError =
    | GoalNotFound
    | ActivePlanNotFound(message: string)
    | GoalTargetDateMissing
    | TaskPlanValidation(message: string)
    | Llm(error: LlmError)
    | Unexpected(reason: string)

  function FromGateway(e: GatewayError): ServiceError {
    match e
    case ClientError(err) => Llm(err)
    case PayloadNotAMapping => Unexpected("payload is not a mapping")
  }

  /**
   * What a request can observe besides the tables: the clock, the uuid source,
   * the decoders and encoders of the runtime (`json.loads`, `datetime.fromisoformat`,
   * `date.isoformat`, `str` of a JSON value, pydantic model construction), the
   * LLM transport, and the column names the tasks table reports.
   */
  datatype Env = Env(
    today: Date,
    now: int,
    parseJson: string -> Option<Json>,
    parseIsoDate: string -> Option<Date>,
    formatIsoDate: Date -> string,
    pyStr: Json -> string,
    buildSummary: map<string, Json> -> Option<PlanSummaryResult>,
    buildTaskPlan: map<string, Json> -> Option<TaskPlanResult>,
    summaryTransport: PlanSummaryPrompt -> Result<string, LlmError>,
    taskTransport: TaskPlanPrompt -> Result<string, LlmError>,
    modelName: string,
    taskColumns: set<string>,
    freshPlanId: Id,
    firstTaskId: Id)

  /** `SELECT ... FROM goals WHERE id = :goal_id LIMIT 1` */
  function FindGoal(goals: seq<Goal>, id: Id): (r: Option<Goal>)
    ensures r.Some? ==> r.value in goals && r.value.id == id
    ensures r.None? <==> forall i :: 0 <= i < |goals| ==> goals[i].id != id
  {
    if |goals| == 0 then None
    else if goals[0].id == id then Some(goals[0])
    else FindGoal(goals[1..], id)
  }

  function FindProfile(profiles: seq<Profile>, id: Id): (r: Option<Profile>)
    ensures r.Some? ==> r.value in profiles && r.value.id == id
    ensures r.None? <==> forall i :: 0 <= i < |profiles| ==> profiles[i].id != id
  {
    if |profiles| == 0 then None
    else if profiles[0].id == id then Some(profiles[0])
    else FindProfile(profiles[1..], id)
  }

  const AllowedLanguages: set<string> := {"en", "es", "zh", "hi", "ar", "ro"}

  /** The allow-list check applied to a profile's language code. */
  function NormalizeLanguage(raw: Option<string>): (r: Option<string>)
    ensures r.Some? ==> r.value in AllowedLanguages
    ensures r.Some? <==> raw.Some? && Lower(Strip(raw.value)) in AllowedLanguages
    ensures r.Some? ==> r.value == Lower(Strip(raw.value))
  {
    match raw
    case Some(code) =>
      if |Strip(code)| > 0 && Lower(Strip(code)) in AllowedLanguages then Some(Lower(Strip(code))) else None
    case None => None
  }

  /** `_fetch_user_language`: the owner's allow-listed language, if any. */
  function UserLanguage(profiles: seq<Profile>, userId: Option<Id>): (r: Option<string>)
    ensures r.Some? ==> r.value in AllowedLanguages
    ensures userId.None? ==> r.None?
    ensures userId.Some? && FindProfile(profiles, userId.value).None? ==> r.None?
    ensures userId.Some? && FindProfile(profiles, userId.value).Some? ==>
      r == NormalizeLanguage(FindProfile(profiles, userId.value).value.languageCode)
  {
    match userId
    case None => None
    case Some(uid) =>
      match FindProfile(profiles, uid)
      case None => None
      case Some(profile) => NormalizeLanguage(profile.languageCode)
  }

  /** The ORDER BY of the plan queries: active first, then higher version, then newer. */
  predicate Outranks(a: Plan, b: Plan) {
    || (a.isActive && !b.isActive)
    || (a.isActive == b.isActive && a.version > b.version)
    || (a.isActive == b.isActive && a.version == b.version && a.createdAt > b.createdAt)
  }

  /**
   * `SELECT ... FROM ai_plans WHERE goal_id = :goal_id
   *  ORDER BY is_active DESC, version DESC, created_at DESC LIMIT 1`;
   * among rows that tie on all three keys the earliest in the table is taken.
   */
  function LatestPlan(plans: seq<Plan>, goalId: Id): (r: Option<Plan>)
    ensures r.None? <==> forall i :: 0 <= i < |plans| ==> plans[i].goalId != goalId
    ensures r.Some? ==> r.value in plans && r.value.goalId == goalId
    ensures r.Some? ==> forall i :: 0 <= i < |plans| && plans[i].goalId == goalId ==> !Outranks(plans[i], r.value)
  {
    if |plans| == 0 then None
    else
      var rest := LatestPlan(plans[1..], goalId);
      assert forall i :: 1 <= i < |plans| ==> plans[i] == plans[1..][i - 1];
      if plans[0].goalId != goalId then rest
      else if rest.Some? && Outranks(rest.value, plans[0]) then rest
      else Some(plans[0])
  }

  /** Two plan tables that agree row by row on everything the plan queries filter and sort by. */
  predicate SameRanking(a: seq<Plan>, b: seq<Plan>) {
    && |a| == |b|
    && forall i :: 0 <= i < |a| ==>
         && a[i].id == b[i].id && a[i].goalId == b[i].goalId
         && a[i].isActive == b[i].isActive && a[i].version == b[i].version && a[i].createdAt == b[i].createdAt
  }

  /** Rewriting columns the query neither filters nor sorts by leaves the same row on top. */
  lemma {:induction false} LatestPlanSameRanking(a: seq<Plan>, b: seq<Plan>, goalId: Id)
    requires SameRanking(a, b)
    ensures LatestPlan(a, goalId).None? <==> LatestPlan(b, goalId).None?
    ensures LatestPlan(a, goalId).Some? ==>
      var x, y := LatestPlan(a, goalId).value, LatestPlan(b, goalId).value;
      x.id == y.id && x.isActive == y.isActive && x.version == y.version && x.createdAt == y.createdAt
  {
    if |a| > 0 {
      assert SameRanking(a[1..], b[1..]) by {
        forall i | 0 <= i < |a| - 1 ensures a[1..][i] == a[i + 1] && b[1..][i] == b[i + 1] { }
      }
      LatestPlanSameRanking(a[1..], b[1..], goalId);
    }
  }

  /** A stored date (`_coerce_date`) read from a JSON value: only ISO strings decode. */
  function JsonDate(v: Option<Json>, parseIsoDate: string -> Option<Date>): (r: Option<Date>)
    ensures r.Some? ==> v.Some? && v.value.JStr? && r == parseIsoDate(v.value.s)
  {
    match v
    case Some(JStr(s)) => parseIsoDate(s)
    case _ => None
  }

  /** `plan.get("plan_json") or {}`, where a decoded column that is not an object reads as `{}`. */
  function PayloadDict(planJson: Json): map<string, Json> {
    if planJson.JObj? then planJson.fields else map[]
  }
}

=== FILE: text.dfy ===
/**
 * The few pieces of Python's `str` behaviour the core relies on: whitespace
 * (`str.isspace`, the `\s` class of `re`), `strip`, `lower` on ASCII letters,
 * substring search, and the decimal rendering of integers used by f-strings.
 */
module Text {
  import opened Wrappers

  /** `str.isspace()` for one character; `re`'s `\s` matches exactly the same set. */
  predicate IsSpace(c: char) {
    var n := c as int;
    || (0x09 <= n <= 0x0D) || (0x1C <= n <= 0x20)
    || n == 0x85 || n == 0xA0 || n == 0x1680
    || (0x2000 <= n <= 0x200A)
    || n == 0x2028 || n == 0x2029 || n == 0x202F || n == 0x205F || n == 0x3000
  }

  /** Drops leading whitespace (`str.lstrip()`, and the greedy `\s*` of a pattern). */
  function TrimStart(s: string): (r: string)
    ensures |r| <= |s| && r == s[|s| - |r|..]
    ensures |r| > 0 ==> !IsSpace(r[0])
    ensures forall i :: 0 <= i < |s| - |r| ==> IsSpace(s[i])
  {
    if |s| > 0 && IsSpace(s[0]) then TrimStart(s[1..]) else s
  }

  /** Drops trailing whitespace (`str.rstrip()`). */
  function TrimEnd(s: string): (r: string)
    ensures |r| <= |s| && r == s[..|r|]
    ensures |r| > 0 ==> !IsSpace(r[|r| - 1])
    ensures forall i :: |r| <= i < |s| ==> IsSpace(s[i])
  {
    if |s| > 0 && IsSpace(s[|s| - 1]) then TrimEnd(s[..|s| - 1]) else s
  }

  /** `str.strip()` */
  function Strip(s: string): string {
    TrimEnd(TrimStart(s))
  }

  function LowerChar(c: char): char {
    if 'A' <= c <= 'Z' then (c as int + 32) as char else c
  }

  /** `str.lower()` on ASCII letters; every other character is kept. */
  function Lower(s: string): (r: string)
    ensures |r| == |s|
    ensures forall i :: 0 <= i < |s| ==> r[i] == LowerChar(s[i])
  {
    seq(|s|, i requires 0 <= i < |s| => LowerChar(s[i]))
  }

  /** The text up to (not including) the first newline. */
  function TakeLine(s: string): (r: string)
    ensures |r| <= |s| && r == s[..|r|]
    ensures '\n' !in r
    ensures |r| < |s| ==> s[|r|] == '\n'
  {
    if |s| == 0 || s[0] == '\n' then [] else [s[0]] + TakeLine(s[1..])
  }

  predicate OccursAt(s: string, pat: string, i: nat) {
    i + |pat| <= |s| && s[i..i + |pat|] == pat
  }

  /** The first position at or after `from` where `pat` occurs in `s`. */
  function IndexFrom(s: string, pat: string, from: nat): (r: Option<nat>)
    ensures r.Some? ==> from <= r.value && OccursAt(s, pat, r.value)
    ensures r.Some? ==> forall j :: from <= j < r.value ==> !OccursAt(s, pat, j)
    ensures r.None? ==> forall j :: from <= j ==> !OccursAt(s, pat, j)
    decreases |s| - from
  {
    if from + |pat| > |s| then None
    else if s[from..from + |pat|] == pat then Some(from)
    else IndexFrom(s, pat, from + 1)
  }

  /** `pat in s` */
  predicate Contains(s: string, pat: string) {
    IndexFrom(s, pat, 0).Some?
  }

  /** One differing character rules an occurrence out. */
  lemma MismatchAt(s: string, pat: string, i: nat, k: nat)
    requires k < |pat| && i + k < |s| && s[i + k] != pat[k]
    ensures !OccursAt(s, pat, i)
  {
    if i + |pat| <= |s| {
      assert s[i..i + |pat|][k] == s[i + k];
    }
  }

  /** A match of every character is an occurrence. */
  lemma MatchAt(s: string, pat: string, i: nat)
    requires i + |pat| <= |s| && forall k :: 0 <= k < |pat| ==> s[i + k] == pat[k]
    ensures OccursAt(s, pat, i)
  {
    assert s[i..i + |pat|] == pat;
  }

  /** The search moves past a position where `pat` does not occur. */
  lemma IndexFromSkip(s: string, pat: string, from: nat)
    requires !OccursAt(s, pat, from)
    ensures IndexFrom(s, pat, from) == IndexFrom(s, pat, from + 1)
  {
  }

  lemma ContainsAt(s: string, pat: string, i: nat)
    requires OccursAt(s, pat, i)
    ensures Contains(s, pat)
  {
  }

  /** An occurrence with none before it is the one the search finds. */
  lemma FirstOccurrence(s: string, pat: string, k: nat)
    requires OccursAt(s, pat, k)
    requires forall j :: 0 <= j < k ==> !OccursAt(s, pat, j)
    ensures IndexFrom(s, pat, 0) == Some(k)
  {
  }

  /** Every string contains itself inside any context. */
  lemma ContainsInfix(a: string, b: string, c: string)
    ensures Contains(a + b + c, b)
  {
    var s := a + b + c;
    assert s[|a|..|a| + |b|] == b;
    ContainsAt(s, b, |a|);
  }

  /** Leading whitespace is dropped up to the first other character. */
  lemma {:induction false} TrimStartSkips(w: string, v: string)
    requires forall i :: 0 <= i < |w| ==> IsSpace(w[i])
    requires |v| > 0 && !IsSpace(v[0])
    ensures TrimStart(w + v) == v
  {
    if |w| > 0 {
      assert (w + v)[1..] == w[1..] + v;
      TrimStartSkips(w[1..], v);
    } else {
      assert w + v == v;
    }
  }

  /** A line ends at the first line break. */
  lemma {:induction false} TakeLineEnds(a: string, b: string)
    requires '\n' !in a
    ensures TakeLine(a + "\n" + b) == a
  {
    if |a| > 0 {
      assert (a + "\n" + b)[1..] == a[1..] + "\n" + b;
      TakeLineEnds(a[1..], b);
      assert a == [a[0]] + a[1..];
    } else {
      assert (a + "\n" + b)[0] == '\n';
    }
  }

  /** Text without surrounding whitespace is its own `strip()`. */
  lemma StripTrimmed(v: string)
    requires |v| > 0 && !IsSpace(v[0]) && !IsSpace(v[|v| - 1])
    ensures Strip(v) == v
  {
  }

  function DigitChar(d: nat): char
    requires d < 10
  {
    ('0' as int + d) as char
  }

  predicate IsDigit(c: char) {
    '0' <= c <= '9'
  }

  function DigitValue(c: char): nat
    requires IsDigit(c)
  {
    c as int - '0' as int
  }

  /** Decimal digits of a natural number, most significant first, no leading zeros. */
  function NatToString(n: nat): (r: string)
    ensures |r| >= 1
    ensures forall i :: 0 <= i < |r| ==> IsDigit(r[i])
    ensures n > 0 ==> r[0] != '0'
    decreases n
  {
    if n < 10 then [DigitChar(n)] else NatToString(n / 10) + [DigitChar(n % 10)]
  }

  /** Python's `str(n)` / f-string rendering of an `int`. */
  function IntToString(n: int): string {
    if n < 0 then "-" + NatToString(-n) else NatToString(n)
  }

  /** Reads a non-empty run of decimal digits. */
  function ParseNat(s: string): nat
    requires |s| >= 1 && forall i :: 0 <= i < |s| ==> IsDigit(s[i])
  {
    if |s| == 1 then DigitValue(s[0])
    else ParseNat(s[..|s| - 1]) * 10 + DigitValue(s[|s| - 1])
  }

  /** Reads the rendering of an `int` back (`int(s)` on what `str` produced). */
  function ParseInt(s: string): Option<int> {
    if |s| >= 2 && s[0] == '-' && forall i :: 1 <= i < |s| ==> IsDigit(s[i]) then Some(0 - ParseNat(s[1..]) as int)
    else if |s| >= 1 && forall i :: 0 <= i < |s| ==> IsDigit(s[i]) then Some(ParseNat(s))
    else None
  }

  lemma {:induction false} NatToStringRoundTrip(n: nat)
    ensures ParseNat(NatToString(n)) == n
    decreases n
  {
    if n >= 10 {
      NatToStringRoundTrip(n / 10);
      var s := NatToString(n);
      assert s[..|s| - 1] == NatToString(n / 10);
    }
  }

  /** Rendering an integer and reading it back gives the integer. */
  lemma IntToStringRoundTrip(n: int)
    ensures ParseInt(IntToString(n)) == Some(n)
  {
    if n < 0 {
      var s := IntToString(n);
      assert s[1..] == NatToString(-n);
      NatToStringRoundTrip(-n);
    } else {
      NatToStringRoundTrip(n);
    }
  }
}

=== FILE: wrappers.dfy ===
/** Failure-compatible wrappers shared by every module of the model. */
module Wrappers {

  /** Python's `Optional[T]`: `None` or a present value. */
  datatype Option<+T> = None | Some(value: T) {

    predicate IsFailure() {
      None?
    }

    function PropagateFailure<U>(): Option<U>
      requires None?
    {
      None
    }

    function Extract(): T
      requires Some?
    {
      value
    }

    /** `x or default` for values that are always truthy when present (dates, strings known non-empty). */
    function GetOr(default: T): T {
      match this
      case Some(v) => v
      case None => default
    }

    /** `a or b` for values whose presence is their truthiness (dates). */
    function OrElse(other: Option<T>): Option<T> {
      match this
      case Some(_) => this
      case None => other
    }
  }

  /** A value or the exception the service raises instead. */
  datatype Result<+R, +E> = Ok(value: R) | Err(error: E) {

    predicate IsFailure() {
      Err?
    }

    function PropagateFailure<U>(): Result<U, E>
      requires Err?
    {
      Err(error)
    }

    function Extract(): R
      requires Ok?
    {
      value
    }
  }
}
